=== FILE: README.md ===
# Percolation on an n-by-n lattice, modelled in Dafny

This project models a percolation simulator. An n-by-n grid of sites starts
with every site closed, and sites are opened one at a time. An open site is
*full* when a path of open 4-neighbour sites joins it to the top row. The
grid *percolates* when some path joins the top row to the bottom row.

The grid keeps two weighted quick-union structures with path halving. Each
ranges over the n*n sites plus two virtual sites: `Bottom(n) = n*n` and
`Top(n) = n*n + 1`.

- The fullness structure `wqu` never links anything to the virtual bottom
  site. `is_full` asks it.
- The percolation structure `wquConnected` does link bottom-row sites to the
  virtual bottom site. `percolates` asks it.

Keeping two structures avoids *backwash*: a bottom-row site reported full
only because the grid percolates through some other bottom-row site.

A trial driver keeps a pool of site ids. The first `numClosedCells` entries
of the pool are exactly the closed sites. The driver picks one of them at
random, swaps it to the end of that prefix, opens it, and repeats until the
grid percolates. It returns the proportion of sites it opened.

## Modules

- `WeightedQuickUnion` (`weighted_quick_union.dfy`): the union-find structure.
  - It is an immutable record `Wqu(id, sz)`.
  - `root` and `connected` halve paths, so they return the new structure with
    their answer.
  - The partition is described abstractly by `Rep` (the root reached without
    compressing) and `Joined`.
  - `Merged` says that a union merged exactly two groups.
  - `SamePartition` says that a query changed no group.
- `Lattice` (`lattice.dfy`): the geometry.
  - It maps 1-based (row, col) to row-major ids and back, and defines
    4-neighbour adjacency.
- `OpenPaths` (`open_paths.dfy`): the reference definition of connectivity.
  - It defines the graph of links between open sites and the virtual sites,
    with or without the bottom links, and `Reach` over paths in that graph.
- `Percolation` (`percolation.dfy`): the grid.
  - Its invariant `Valid` says that the groups of `wqu` are exactly the
    components of the graph without bottom links.
  - It also says that the groups of `wquConnected` are exactly the components
    of the graph with bottom links.
  - `open`, `is_full` and `percolates` are proved against that invariant.
- `PercTester` (`perc_tester.dfy`): the trial driver.
  - The random index is a parameter.
- `PercolationExamples` and `WeightedQuickUnionExamples`: the usage examples
  in the source's docstrings, replayed against the model.

## Model

| member | source | states |
|---|---|---|
| WeightedQuickUnion.New | weighted_quick_union.py:59-62 | n singletons: each element is its own root with weight 1, and two elements are connected exactly when they are equal |
| WeightedQuickUnion.HalveKeepsRoots | weighted_quick_union.py:67 | pointing an element at its grandparent keeps the walk terminating and leaves the root of every element unchanged |
| WeightedQuickUnion.Walk | weighted_quick_union.py:66-68 | the loop ends at the root of `i`; the halving it does on the way changes no element's root and no weight |
| WeightedQuickUnion.Root | weighted_quick_union.py:64-69 | returns the representative of `i`, which is a root before and after; the compressed structure has the same groups |
| WeightedQuickUnion.Connected | weighted_quick_union.py:71-73 | true exactly when `p` and `q` are in one group; the groups and the weights are unchanged |
| WeightedQuickUnion.LinkMerges | weighted_quick_union.py:82-86 | hanging one distinct root under another merges exactly the two groups: members of the first group get the second root, and nobody else changes |
| WeightedQuickUnion.LinkByWeight | weighted_quick_union.py:81-86 | the lighter root goes under the heavier one, and on a tie the root of `q` goes under the root of `p`; the winner's weight becomes the sum and other weights stay; the groups of `p` and `q` are merged |
| WeightedQuickUnion.Union | weighted_quick_union.py:75-86 | equal arguments change nothing; otherwise the result has the old groups with the groups of `p` and `q` merged and no other change, `p` and `q` are joined, and the weight rule holds |
| WeightedQuickUnion.Reset | weighted_quick_union.py:88-91 | back to singletons of weight 1 over the same number of elements |
| WeightedQuickUnion.JoinedIsEquivalence | weighted_quick_union.py:71-73 | `connected` is reflexive, symmetric and transitive |
| WeightedQuickUnionExamples.UnionExample | weighted_quick_union.py:20-56 | the documented session: a fresh structure of 10, `connected(4, 5)` false, the nine unions producing the printed `id` arrays, then `connected(4, 5)` true, then `reset` restoring the identity |
| WeightedQuickUnionExamples.UnionStep9 | weighted_quick_union.py:49-51 | `union(7, 3)` yields the printed array in which path halving has moved 7 from 2 to 6 |
| WeightedQuickUnionExamples.ConnectedAfter | weighted_quick_union.py:52-53 | after the nine unions, `connected(4, 5)` is true and leaves the structure as it was |
| Lattice.VirtualIdsPastCells | percolation.py:49-50 | the virtual bottom and top ids are not cell ids, and the top id is the bottom id plus one |
| Lattice.RowColToId | percolation.py:52-67 | an in-grid (row, col) has an id in 0..n*n-1, and converting that id back gives (row, col) |
| Lattice.CellIdToRowCol | perc_tester.py:60-77 | every id in 0..n*n-1 maps to an in-grid (row, col) |
| Lattice.IdOfRowCol | perc_tester.py:75-77 | converting an id to (row, col) and back gives the id again: the other half of the round trip |
| Lattice.RowColToIdInjective | percolation.py:67 | distinct in-grid cells have distinct ids |
| Lattice.AdjacentCells | percolation.py:99-121 | the four neighbours `open` examines (left, right, above, below, each when in the grid) are exactly the 4-neighbours of the cell |
| OpenPaths.ClosedGridReach | percolation.py:46-48 | in a grid with every site closed, a node reaches only itself, with or without the bottom links |
| OpenPaths.OpenGridPercolates | perc_tester.py:122 | in a grid with every site open, the virtual bottom reaches the virtual top, so the loop of the trial run must end |
| OpenPaths.NodeEdges | percolation.py:99-132 | the only links of a site are its open 4-neighbours and the virtual site of its row; the virtual sites' links are the open sites of their row |
| Percolation.New | percolation.py:17-50 | a side `n <= 0` is rejected; otherwise every site is closed, both structures track the empty graph, and the grid does not percolate |
| Percolation.IsOpen | percolation.py:135-137 | a cell is reported open exactly when its id is among the open ids, the set that `number_of_open_sites` counts |
| Percolation.NumberOfOpenSitesCountsOpenCells | percolation.py:171-182 | the count equals the number of open ids, and an id is open exactly when it is a cell that `is_open` reports open |
| Percolation.CountOpenIsCardinality | percolation.py:171-182 | the count of open sites is the number of open site ids |
| Percolation.CountOpenAfterOpening | percolation.py:98 | setting one closed site open raises the count by exactly one |
| Percolation.FullCountMeansAllOpen | percolation.py:182 | a count equal to n*n means every site is open |
| Percolation.UnionBoth | percolation.py:99-103 | the left-neighbour step, with no check first: both structures have the groups of the cell and the neighbour merged |
| Percolation.UnionBothUnlessConnected | percolation.py:104-121 | the right, up and down steps, which check `wqu` first: both structures end up with the two groups merged, and the check is sound because `wqu` groups lie inside `wquConnected` groups |
| Percolation.UnionTop | percolation.py:125-129 | the top-row step: both structures have the cell merged with the virtual top, and the extra `connected` call between the unions is kept |
| Percolation.UnionBottom | percolation.py:130-132 | the bottom-row step: only `wquConnected` has the cell merged with the virtual bottom |
| Percolation.NeighbourStep | percolation.py:99-121 | one neighbour step keeps each structure's groups inside the components of the new graph, and joins an open neighbour to the cell in both structures |
| Percolation.TopStep | percolation.py:125-129 | the top-row step keeps that containment and joins a top-row cell to the virtual top in both structures |
| Percolation.BottomStep | percolation.py:130-132 | the bottom-row step keeps that containment and joins a bottom-row cell to the virtual bottom in `wquConnected` |
| Percolation.LinkNeighbours | percolation.py:99-121 | after the four neighbour steps, in the source's order, both structures join the cell to every open 4-neighbour |
| Percolation.LinkVirtual | percolation.py:125-132 | after the two row steps, the neighbour joins still hold, top-row cells are joined to the virtual top in both structures, and bottom-row cells to the virtual bottom in `wquConnected` |
| Percolation.TracksAfterOpening | percolation.py:96-133 | old groups kept, new groups inside the new components, and every link of the new cell joined: together these make the groups exactly the new components |
| Percolation.OpenClosed | percolation.py:97-133 | opening a closed site gives a valid grid whose structures track the graph with that site open, and no earlier join is lost |
| Percolation.Open | percolation.py:96-133 | the site is open afterwards and no other site changes; opening an open site changes nothing; the invariant holds and no join is lost |
| Percolation.OpenCounts | percolation.py:96-98 | `open` raises the open-site count by one for a closed site and by zero for an open one |
| Percolation.OpenTouchesOneCell | percolation.py:96-98 | every other site keeps its open or closed state |
| Percolation.OpenLinks | percolation.py:99-132 | after `open`, both structures connect the cell to each previously open neighbour, a top-row cell to the virtual top in both structures, and a bottom-row cell to the virtual bottom in `wquConnected` |
| Percolation.OpenKeepsPercolating | percolation.py:96-133 | a grid that percolates still percolates after any `open` |
| Percolation.IsFull | percolation.py:139-169 | true exactly when the site is open and a path of open sites joins it to the top row; only `wqu` paths are halved, and its groups stay |
| Percolation.NoBackwash | percolation.py:35-41 | in `wqu` nothing is ever joined to the virtual bottom, and every `wqu` join is also a `wquConnected` join |
| Percolation.Percolates | percolation.py:184-203 | true exactly when a path of open sites joins the bottom row to the top row; only `wquConnected` paths are halved, and its groups stay |
| Percolation.PercolatesIffFullBottomCell | percolation.py:184-203 | the grid percolates exactly when some bottom-row site is full |
| Percolation.Reset | percolation.py:205-209 | the grid after reset equals a freshly constructed grid of the same side, with no open sites |
| PercolationExamples.RowColToIdExample | percolation.py:57-65 | on a 2-by-2 grid the four cells have ids 0, 1, 2, 3 |
| PercolationExamples.OpenExample | percolation.py:74-95 | the documented `open` session on a 3-by-3 grid gives the eight printed answers |
| PercolationExamples.IsFullClosed | percolation.py:150-152 | a closed site of a fresh grid is not full |
| PercolationExamples.IsFullExample | percolation.py:150-165 | the documented `is_full` session gives the five printed answers, including the last one, where backwash does not occur |
| PercolationExamples.NumberOfOpenSitesExample | percolation.py:176-180 | two opened sites give a count of 2 |
| PercolationExamples.PercolatesExample | percolation.py:189-200 | the documented `percolates` session answers false, false, true |
| PercTester.IdentityIsPermutation | perc_tester.py:25 | the initial pool 0..n*n-1 lists every site id exactly once |
| PercTester.New | perc_tester.py:21-31 | a side `n <= 0` is rejected; otherwise every site is closed, the pool is 0..n*n-1 with all n*n entries in the closed prefix, and the pool invariant holds |
| PercTester.SwapKeepsPermutation | perc_tester.py:54-56 | exchanging two pool entries keeps the pool a permutation of the site ids |
| PercTester.PickRandomClosedCell | perc_tester.py:33-58 | an empty closed prefix is an error, because there is no range to draw from; otherwise the drawn entry and the last entry of the prefix trade places, no other entry moves, and the returned (row, col) is a closed in-grid site whose id was drawn |
| PercTester.ClosedPrefixIsClosedCells | perc_tester.py:38-39 | a site is closed exactly when its id lies in the closed prefix of the pool |
| PercTester.OpenedPoolStaysValid | perc_tester.py:124-126 | after the picked site is opened and the prefix shrinks by one, the pool invariant holds again |
| PercTester.OpenRandomCell | perc_tester.py:124-127 | one loop iteration opens the site whose id was drawn, which was closed, and changes no other site; the drawn entry and the last entry of the closed prefix trade places and no other entry moves; the prefix shrinks by one, the open count rises by one, the pool invariant holds, and percolation is never undone |
| PercTester.EmptyPoolPercolates | perc_tester.py:122 | an empty closed prefix means every site is open, so the grid percolates |
| PercTester.PoolNotEmpty | perc_tester.py:122-124 | while the grid does not percolate, the run has a closed site left to draw |
| PercTester.AskPercolates | perc_tester.py:122 | the loop test answers whether the grid percolates and leaves the sites and the pool unchanged |
| PercTester.Trial | perc_tester.py:122-127 | one trial on a non-percolating grid opens one site, keeps the run's counting relation, and answers the next loop test; closing that site again leaves no open path from bottom to top, and every site open before the trial is still open; the cells and pool it leaves are exactly those of opening the cell draw `r` selects |
| PercTester.OpeningWasNeeded | perc_tester.py:122-127 | when the grid does not percolate, the site a trial opens is the one whose closing again removes every open bottom-to-top path, and no open site is closed |
| PercTester.RunToPercolation | perc_tester.py:106-129 | the run ends with a percolating grid; the number opened is the amount the closed prefix shrank, and is at most the closed count at the start; it is zero exactly when the grid percolated at the start, and from a fresh tester it equals the number of open sites; the denominator is n*n; the run stops at the first percolating grid, since when it opened any site, closing the last opened site again leaves no open path from bottom to top; every site open at the start is still open at the end; the cells and pool at the end are those of the reference run that opens, for each k below the number opened, the cell draw k selects, and none of that reference run's grids before the last one percolates, so the number opened is the first count of draws at which the grid percolates |
| PercTester.AfterDraws | perc_tester.py:122-127 | the reference run: after k draws each opening the cell it selects, the pool invariant holds and k fewer cells are closed |
| PercTester.NotYetStep | perc_tester.py:122 | a loop test that answers false extends, by one draw, the stretch of reference grids that do not percolate |
| PercTester.OpenAgrees | perc_tester.py:124-127 | which cell a draw opens, and the pool it leaves, depend only on the cells and the pool, not on the halving inside the union-find structures |
| PercTester.DrawStep | perc_tester.py:122-127 | a run that matches the reference run after k draws still matches it after opening with draw k |
| PercTester.PickExample | perc_tester.py:43-49 | on a fresh 2-by-2 tester with draw 0, the pick returns (1, 1) and the pool becomes [3, 1, 2, 0] |
| PercTester.CellIdToRowColExample | perc_tester.py:65-73 | on a 2-by-2 grid the ids 0..3 map to (1, 1), (1, 2), (2, 1), (2, 2) |

## Left out

- `percolation_stats.py` is not part of this model: its statistics are stubs, and the rest is floating-point arithmetic.
- The `print` calls in `open`, `main` in `percolation.py`, and the plotting in `PercTester` (`plot_interval`, `plot_lattice`, `map_full_cells`, the `cell` array) are output only. One exception is kept: the `wquConnected.connected(top, cell)` call printed at line 128 of `percolation.py` halves paths, so `UnionTop` performs it.
- `np.random`, its seed, and the seed-dependent `run_to_percolation` example (73%) are not modelled. The index `randint` would draw is a parameter: `r` for one pick, `draws` for a run.
- `PercTester.run` opens every site and prints when percolation first occurs. Its per-step work is `OpenRandomCell`; the loop itself, with its printing, is not modelled.
- `PercTester.reset` reads a global `n` instead of the tester's own side, so it is not modelled.
- PercTester.RunToPercolation: returns the proportion as the pair (opened, n*n) of naturals instead of a float quotient.
- WeightedQuickUnion.New: the element count is a natural. For a negative count the source raises `ValueError` at `np.ones` (weighted_quick_union.py:62); the model has no such error path.
- WeightedQuickUnion.Union: `sz` is an unbounded integer here, while the source's numpy integers are 64 bits wide and wrap. The weights can overflow. In `open`, `wquConnected` receives unions of cells whose roots already coincide, because the check before the right, up and down unions asks `wqu`, not `wquConnected`. Each such union doubles a root's weight (weighted_quick_union.py:84-86). For example, opening every odd-column bottom-row cell and then every even-column one doubles the bottom group's weight about n/2 times, which by that count passes 2^63 from about n = 115. A wrapped weight can only change which root is hung under which at weighted_quick_union.py:81. The groups, and so every answer of `connected`, `is_full` and `percolates`, stay the same, but the `id` arrays can differ from the model's.
- WeightedQuickUnion.Root, WeightedQuickUnion.Connected, WeightedQuickUnion.Union: require every id to lie in 0..n-1. In the source, `self.id[i]` raises IndexError for `i >= n` and wraps around for negative `i`. The grid only ever passes ids in range: cell ids of in-grid cells and the two virtual ids.
- WeightedQuickUnion.Union: `sz` is a balancing weight, not the size of a group. A union of two elements that already share a root still doubles that root's weight (weighted_quick_union.py:84-86), and the model does the same. No contract claims that `sz` counts members.
- Percolation.Open: requires (row, col) inside the grid. Out-of-range arguments in the source can index the numpy array out of bounds, or wrap around through negative indices. They can also alias another cell: `open(1, n + 1)` computes id n, so it silently opens (2, 1) and joins that cell to (1, n) through the left step. Because the row argument is 1, the call also takes the top-row branch (percolation.py:125-129), so (2, 1) is joined to the virtual top in both structures and is then reported full. None of this is the intended behaviour.
- Percolation.IsFull: requires (row, col) inside the grid, for the same reason.
- Percolation.IsOpen: requires (row, col) inside the grid, for the same reason. The source reads `cell_state[(row-1)*n + col-1]` unchecked (percolation.py:135-137): `col = n + 1` reads the first site of the next row, `row = 0` wraps to a negative index, and `row = n + 1` raises IndexError.
- The source asks the union-find structures directly in the `open` example (`p.wqu.connected(6, 9)`). The examples module does this through `AskWqu` and `AskWquConnected`, which call `Connected` on the grid's structures.

=== FILE: lattice.dfy ===
/**
 Geometry of the n-by-n lattice: 1-based (row, col) cells, their row-major
 ids 0..n*n-1, the two virtual ids just past the cells, and 4-neighbour
 adjacency. Both directions of the id mapping live here because the grid
 and the trial driver share them.
 */
module Lattice {

  /** The virtual element every open bottom-row cell is joined to (for percolation only). */
  function Bottom(n: int): int {
    n * n
  }

  /** The virtual element every open top-row cell is joined to, just past `Bottom(n)`. */
  function Top(n: int): int {
    n * n + 1
  }

  predicate InGrid(n: int, row: int, col: int) {
    1 <= row <= n && 1 <= col <= n
  }

  predicate IsCell(n: int, x: int) {
    0 <= x < n * n
  }

  /** The two virtual ids are the first two ids past the cells. */
  lemma VirtualIdsPastCells(n: int)
    ensures !IsCell(n, Bottom(n)) && !IsCell(n, Top(n)) && Top(n) == Bottom(n) + 1
  {
  }

  lemma MulLessCancel(q: int, m: int, n: int)
    requires n > 0 && q * n < m * n
    ensures q < m
  {
    assert (m - q) * n == m * n - q * n;
  }

  lemma MulMonotone(a: int, b: int, n: int)
    requires a <= b && n >= 0
    ensures a * n <= b * n
  {
    assert (b - a) * n == b * n - a * n;
  }

  lemma RowMajorBound(n: int, row: int, col: int)
    requires InGrid(n, row, col)
    ensures 0 <= (row - 1) * n + col - 1 < n * n
  {
    MulMonotone(0, row - 1, n);
    MulMonotone(row - 1, n - 1, n);
  }

  lemma DivModRowMajor(n: int, a: int, b: int)
    requires n > 0 && 0 <= b < n
    ensures (a * n + b) / n == a && (a * n + b) % n == b
  {
    var x := a * n + b;
    assert x == (x / n) * n + x % n;
    MulLessCancel(x / n, a + 1, n);
    MulLessCancel(a, x / n + 1, n);
  }

  /** `_row_col_to_id`: the row-major id of the 1-based cell (row, col). */
  function RowColToId(n: int, row: int, col: int): (x: int)
    ensures n > 0 && InGrid(n, row, col) ==> IsCell(n, x) && CellIdToRowCol(n, x) == (row, col)
  {
    var x := (row - 1) * n + col - 1;
    if n > 0 && InGrid(n, row, col) then
      RowMajorBound(n, row, col);
      DivModRowMajor(n, row - 1, col - 1);
      x
    else x
  }

  /** `_cell_id_to_row_col`: row from the quotient, column from the remainder. */
  function CellIdToRowCol(n: int, x: int): (rc: (int, int))
    requires n > 0
    ensures IsCell(n, x) ==> InGrid(n, rc.0, rc.1)
  {
    if IsCell(n, x) then
      assert x == (x / n) * n + x % n;
      MulLessCancel(x / n, n, n);
      (x / n + 1, x % n + 1)
    else (x / n + 1, x % n + 1)
  }

  function Row(n: int, x: int): int
    requires n > 0
  {
    CellIdToRowCol(n, x).0
  }

  function Col(n: int, x: int): int
    requires n > 0
  {
    CellIdToRowCol(n, x).1
  }

  /** Every cell id is the id of the cell it maps to. */
  lemma IdOfRowCol(n: int, x: int)
    requires n > 0 && IsCell(n, x)
    ensures RowColToId(n, Row(n, x), Col(n, x)) == x
  {
    assert x == (x / n) * n + x % n;
  }

  /** Distinct in-grid cells have distinct ids. */
  lemma RowColToIdInjective(n: int, r1: int, c1: int, r2: int, c2: int)
    requires n > 0 && InGrid(n, r1, c1) && InGrid(n, r2, c2)
    requires RowColToId(n, r1, c1) == RowColToId(n, r2, c2)
    ensures r1 == r2 && c1 == c2
  {
  }

  /** 4-neighbour adjacency of two cells. */
  predicate Adjacent(n: int, x: int, y: int)
    requires n > 0
  {
    && IsCell(n, x) && IsCell(n, y)
    && (|| (Row(n, x) == Row(n, y) && (Col(n, x) - Col(n, y) == 1 || Col(n, y) - Col(n, x) == 1))
        || (Col(n, x) == Col(n, y) && (Row(n, x) - Row(n, y) == 1 || Row(n, y) - Row(n, x) == 1)))
  }

  lemma AdjacentSymmetric(n: int, x: int, y: int)
    requires n > 0
    ensures Adjacent(n, x, y) <==> Adjacent(n, y, x)
  {
  }

  /**
   The cells adjacent to (row, col) are exactly the in-grid ones among
   (row, col - 1), (row, col + 1), (row - 1, col) and (row + 1, col).
   */
  lemma AdjacentCells(n: int, row: int, col: int, y: int)
    requires n > 0 && InGrid(n, row, col)
    ensures Adjacent(n, RowColToId(n, row, col), y) <==>
      || (col > 1 && y == RowColToId(n, row, col - 1))
      || (col < n && y == RowColToId(n, row, col + 1))
      || (row > 1 && y == RowColToId(n, row - 1, col))
      || (row < n && y == RowColToId(n, row + 1, col))
  {
    var x := RowColToId(n, row, col);
    if Adjacent(n, x, y) {
      IdOfRowCol(n, y);
    }
  }
}

=== FILE: open_paths.dfy ===
/**
 The graph the two union-find structures of a grid are meant to track.

 Nodes are the cell ids 0..n*n-1 plus the two virtual ids `Bottom(n)` and
 `Top(n)`. Two open 4-neighbour cells are linked; an open top-row cell is
 linked to `Top(n)`; when `withBottom` holds, an open bottom-row cell is also
 linked to `Bottom(n)`. The fullness structure tracks the graph without the
 bottom links, the percolation structure the graph with them.
 */
module OpenPaths {
  import opened Lattice

  predicate IsNode(n: int, x: int) {
    0 <= x < n * n + 2
  }

  /** A link in one direction; `Edge` is its symmetric closure. */
  predicate Link(n: int, open: seq<bool>, withBottom: bool, x: int, y: int)
    requires n > 0 && |open| == n * n
  {
    || (IsCell(n, x) && IsCell(n, y) && open[x] && open[y] && Adjacent(n, x, y))
    || (x == Top(n) && IsCell(n, y) && open[y] && Row(n, y) == 1)
    || (withBottom && x == Bottom(n) && IsCell(n, y) && open[y] && Row(n, y) == n)
  }

  predicate Edge(n: int, open: seq<bool>, withBottom: bool, x: int, y: int)
    requires n > 0 && |open| == n * n
  {
    Link(n, open, withBottom, x, y) || Link(n, open, withBottom, y, x)
  }

  ghost predicate IsPath(n: int, open: seq<bool>, withBottom: bool, s: seq<int>)
    requires n > 0 && |open| == n * n
  {
    && |s| > 0
    && (forall i :: 0 <= i < |s| ==> IsNode(n, s[i]))
    && (forall i :: 0 <= i < |s| - 1 ==> Edge(n, open, withBottom, s[i], s[i + 1]))
  }

  /** There is a path of links from `x` to `y`. */
  ghost predicate Reach(n: int, open: seq<bool>, withBottom: bool, x: int, y: int)
    requires n > 0 && |open| == n * n
  {
    exists s :: IsPath(n, open, withBottom, s) && s[0] == x && s[|s| - 1] == y
  }

  lemma ReachRefl(n: int, open: seq<bool>, withBottom: bool, x: int)
    requires n > 0 && |open| == n * n && IsNode(n, x)
    ensures Reach(n, open, withBottom, x, x)
  {
    assert IsPath(n, open, withBottom, [x]);
  }

  lemma ReachEdge(n: int, open: seq<bool>, withBottom: bool, x: int, y: int)
    requires n > 0 && |open| == n * n && IsNode(n, x) && IsNode(n, y)
    requires Edge(n, open, withBottom, x, y)
    ensures Reach(n, open, withBottom, x, y)
  {
    assert IsPath(n, open, withBottom, [x, y]);
  }

  function Reverse(s: seq<int>): (r: seq<int>)
    ensures |r| == |s| && forall i :: 0 <= i < |s| ==> r[i] == s[|s| - 1 - i]
  {
    if |s| == 0 then [] else Reverse(s[1..]) + [s[0]]
  }

  lemma ReachSym(n: int, open: seq<bool>, withBottom: bool, x: int, y: int)
    requires n > 0 && |open| == n * n
    requires Reach(n, open, withBottom, x, y)
    ensures Reach(n, open, withBottom, y, x)
  {
    var s :| IsPath(n, open, withBottom, s) && s[0] == x && s[|s| - 1] == y;
    var r := Reverse(s);
    assert IsPath(n, open, withBottom, r) by {
      forall i | 0 <= i < |r| - 1
        ensures Edge(n, open, withBottom, r[i], r[i + 1])
      {
        assert r[i] == s[|s| - 1 - i] && r[i + 1] == s[|s| - 1 - i - 1];
      }
    }
  }

  lemma ReachTrans(n: int, open: seq<bool>, withBottom: bool, x: int, y: int, z: int)
    requires n > 0 && |open| == n * n
    requires Reach(n, open, withBottom, x, y) && Reach(n, open, withBottom, y, z)
    ensures Reach(n, open, withBottom, x, z)
  {
    var s :| IsPath(n, open, withBottom, s) && s[0] == x && s[|s| - 1] == y;
    var t :| IsPath(n, open, withBottom, t) && t[0] == y && t[|t| - 1] == z;
    var st := s + t[1..];
    assert IsPath(n, open, withBottom, st) by {
      forall i | 0 <= i < |st| - 1
        ensures Edge(n, open, withBottom, st[i], st[i + 1])
      {
        if i < |s| - 1 {
          assert st[i] == s[i] && st[i + 1] == s[i + 1];
        } else {
          var j := i - (|s| - 1);
          assert st[i] == t[j] && st[i + 1] == t[j + 1];
        }
      }
    }
    assert st[|st| - 1] == z;
  }

  /** Opening more cells, or adding the bottom links, only adds links. */
  predicate MoreOpen(n: int, open: seq<bool>, wb: bool, open': seq<bool>, wb': bool)
    requires n > 0 && |open| == n * n && |open'| == n * n
  {
    (wb ==> wb') && forall i :: 0 <= i < n * n && open[i] ==> open'[i]
  }

  lemma ReachMono(n: int, open: seq<bool>, wb: bool, open': seq<bool>, wb': bool, x: int, y: int)
    requires n > 0 && |open| == n * n && |open'| == n * n
    requires MoreOpen(n, open, wb, open', wb')
    requires Reach(n, open, wb, x, y)
    ensures Reach(n, open', wb', x, y)
  {
    var s :| IsPath(n, open, wb, s) && s[0] == x && s[|s| - 1] == y;
    assert IsPath(n, open', wb', s) by {
      forall i | 0 <= i < |s| - 1
        ensures Edge(n, open', wb', s[i], s[i + 1])
      {
        assert Edge(n, open, wb, s[i], s[i + 1]);
      }
    }
  }

  /**
   A set of nodes that no edge leaves traps every path that starts in it.
   This is how a pair is shown NOT to be connected.
   */
  lemma {:induction false} ClosedSetTraps(n: int, open: seq<bool>, wb: bool, trap: set<int>, x: int, y: int)
    requires n > 0 && |open| == n * n
    requires forall a, b :: a in trap && IsNode(n, b) && Edge(n, open, wb, a, b) ==> b in trap
    requires x in trap && Reach(n, open, wb, x, y)
    ensures y in trap
  {
    var s :| IsPath(n, open, wb, s) && s[0] == x && s[|s| - 1] == y;
    var i := 0;
    while i < |s| - 1
      invariant 0 <= i < |s| && s[i] in trap
    {
      assert Edge(n, open, wb, s[i], s[i + 1]);
      i := i + 1;
    }
  }

  /** Without the bottom links nothing touches `Bottom(n)`. */
  lemma BottomIsolated(n: int, open: seq<bool>, y: int)
    requires n > 0 && |open| == n * n
    requires Reach(n, open, false, Bottom(n), y)
    ensures y == Bottom(n)
  {
    ClosedSetTraps(n, open, false, {Bottom(n)}, Bottom(n), y);
  }

  /** With every cell closed there are no links at all. */
  lemma ClosedGridReach(n: int, open: seq<bool>, wb: bool, x: int, y: int)
    requires n > 0 && |open| == n * n
    requires forall i :: 0 <= i < n * n ==> !open[i]
    ensures Reach(n, open, wb, x, y) <==> IsNode(n, x) && x == y
  {
    if Reach(n, open, wb, x, y) {
      var s :| IsPath(n, open, wb, s) && s[0] == x && s[|s| - 1] == y;
      ClosedSetTraps(n, open, wb, {x}, x, y);
    }
    if IsNode(n, x) && x == y {
      ReachRefl(n, open, wb, x);
    }
  }

  /** In a fully open grid the first column joins `Top(n)` to `Bottom(n)`. */
  lemma OpenGridPercolates(n: int, open: seq<bool>)
    requires n > 0 && |open| == n * n
    requires forall i :: 0 <= i < n * n ==> open[i]
    ensures Reach(n, open, true, Bottom(n), Top(n))
  {
    var k := 1;
    var top := RowColToId(n, 1, 1);
    ReachEdge(n, open, true, top, Top(n));
    while k < n
      invariant 1 <= k <= n
      invariant Reach(n, open, true, RowColToId(n, k, 1), Top(n))
    {
      var up, down := RowColToId(n, k, 1), RowColToId(n, k + 1, 1);
      assert Adjacent(n, down, up);
      ReachEdge(n, open, true, down, up);
      ReachTrans(n, open, true, down, up, Top(n));
      k := k + 1;
    }
    var last := RowColToId(n, n, 1);
    ReachEdge(n, open, true, Bottom(n), last);
    ReachTrans(n, open, true, Bottom(n), last, Top(n));
  }

  /**
   The links at each kind of node: a cell's are its open row-major
   neighbours and the virtual ids of its row; the virtual ids' are the open
   cells of their row.
   */
  lemma NodeEdges(n: int, open: seq<bool>, wb: bool, a: int, b: int)
    requires n > 0 && |open| == n * n && IsNode(n, a) && Edge(n, open, wb, a, b)
    ensures IsCell(n, a) ==>
      && open[a]
      && (|| (IsCell(n, b) && open[b] && (
               || (b == a - 1 && Col(n, a) > 1) || (b == a + 1 && Col(n, a) < n)
               || (b == a - n && Row(n, a) > 1) || (b == a + n && Row(n, a) < n)))
          || (b == Top(n) && Row(n, a) == 1)
          || (wb && b == Bottom(n) && Row(n, a) == n))
    ensures a == Top(n) ==> IsCell(n, b) && open[b] && Row(n, b) == 1
    ensures a == Bottom(n) ==> wb && IsCell(n, b) && open[b] && Row(n, b) == n
  {
    if IsCell(n, a) {
      var row, col := Row(n, a), Col(n, a);
      IdOfRowCol(n, a);
      AdjacentSymmetric(n, a, b);
      AdjacentCells(n, row, col, b);
      assert (row - 2) * n == (row - 1) * n - n;
      assert row * n == (row - 1) * n + n;
    }
  }
}

=== FILE: perc_tester.dfy ===
/**
 The trial driver: a grid plus a pool of cell ids whose first
 `numClosedCells` entries are the cells still closed. A draw picks one of
 those entries, swaps it to the end of the closed prefix, and the run opens
 it and shrinks the prefix, until the grid percolates.

 The random index the source draws is a parameter here: a single draw `r`
 for one pick, a sequence `draws` for a whole run.
 */
module PercTester {
  import opened Wrappers
  import opened Lattice
  import opened OpenPaths
  import opened Percolation

  datatype Tester = Tester(p: Grid, n: int, closedCells: seq<int>, numClosedCells: int)

  /** `s` lists every id in 0..m-1 exactly once. */
  ghost predicate IsPermutation(s: seq<int>, m: int) {
    && |s| == m
    && (forall i :: 0 <= i < m ==> 0 <= s[i] < m)
    && (forall i, j :: 0 <= i < j < m ==> s[i] != s[j])
    && (forall v :: 0 <= v < m ==> v in s)
  }

  /**
   The pool invariant: the pool is a permutation of the cell ids, an entry
   lies in the closed prefix exactly when its cell is closed, and the open
   cells and the prefix together account for every cell.
   */
  ghost predicate Valid(t: Tester) {
    && Percolation.Valid(t.p) && t.n == t.p.n
    && IsPermutation(t.closedCells, t.n * t.n)
    && 0 <= t.numClosedCells <= t.n * t.n
    && (forall i :: 0 <= i < t.n * t.n ==> (i < t.numClosedCells <==> !t.p.cellState[t.closedCells[i]]))
    && NumberOfOpenSites(t.p) + t.numClosedCells == t.n * t.n
  }

  lemma IdentityIsPermutation(m: nat)
    ensures IsPermutation(seq(m, i => i), m)
  {
    var s := seq(m, i => i);
    forall v | 0 <= v < m
      ensures v in s
    {
      assert s[v] == v;
    }
  }

  /** The pool part of the constructor: every cell closed, the pool in order. */
  function New(n: int): (r: Result<Tester>)
    ensures n <= 0 <==> r == Err(InvalidConfig)
    ensures r.Ok? ==>
      && Valid(r.value) && r.value.n == n
      && r.value.closedCells == seq(n * n, i => i)
      && r.value.numClosedCells == n * n
      && NumberOfOpenSites(r.value.p) == 0
  {
    match Percolation.New(n)
    case Err(e) => Err(e)
    case Ok(p) =>
      var t := Tester(p, n, seq(n * n, i => i), n * n);
      IdentityIsPermutation(n * n);
      CountOpenIsCardinality(p.cellState);
      assert OpenIds(p.cellState) == {};
      Ok(t)
  }

  /** Exchanging two entries keeps a permutation a permutation. */
  lemma SwapKeepsPermutation(s: seq<int>, m: int, a: int, b: int)
    requires IsPermutation(s, m) && 0 <= a < m && 0 <= b < m
    ensures IsPermutation(s[a := s[b]][b := s[a]], m)
  {
    var s' := s[a := s[b]][b := s[a]];
    forall v | 0 <= v < m
      ensures v in s'
    {
      assert v in s;
      var i :| 0 <= i < m && s[i] == v;
      if i == a {
        assert s'[b] == v;
      } else if i == b {
        assert s'[a] == v;
      } else {
        assert s'[i] == v;
      }
    }
  }

  /**
   `_pick_random_closed_cell` with `r` the index `randint` drew: the id at
   `r` is swapped with the last entry of the closed prefix and returned as
   a (row, col) pair; the prefix length is left to the caller. With an
   empty prefix `randint` has no range to draw from.
   */
  function PickRandomClosedCell(t: Tester, r: int): (res: Result<((int, int), Tester)>)
    requires Valid(t)
    requires t.numClosedCells > 0 ==> 0 <= r < t.numClosedCells
    ensures t.numClosedCells == 0 <==> res == Err(EmptyRange)
    ensures res.Ok? ==>
      var ((row, col), t') := res.value;
      var k := t.numClosedCells - 1;
      && Valid(t') && t'.p == t.p && t'.n == t.n && t'.numClosedCells == t.numClosedCells
      && t'.closedCells[k] == t.closedCells[r] && t'.closedCells[r] == t.closedCells[k]
      && (forall i :: 0 <= i < t.n * t.n && i != r && i != k ==> t'.closedCells[i] == t.closedCells[i])
      && InGrid(t.n, row, col) && RowColToId(t.n, row, col) == t.closedCells[r]
      && !IsOpen(t.p, row, col)
  {
    if t.numClosedCells == 0 then Err(EmptyRange)
    else
      var k := t.numClosedCells - 1;
      var cellId := t.closedCells[r];
      var cc := t.closedCells[r := t.closedCells[k]][k := cellId];
      SwapKeepsPermutation(t.closedCells, t.n * t.n, r, k);
      IdOfRowCol(t.n, cellId);
      Ok((CellIdToRowCol(t.n, cellId), t.(closedCells := cc)))
  }

  /**
   The body of the `run_to_percolation` loop (perc_tester.py lines 124-127): pick a closed
   cell with draw `r`, open it, and shrink the closed prefix by one.
   */
  function OpenRandomCell(t: Tester, r: int): (t': Tester)
    requires Valid(t) && 0 <= r < t.numClosedCells
    ensures Valid(t') && t'.n == t.n && t'.numClosedCells == t.numClosedCells - 1
    ensures !t.p.cellState[t.closedCells[r]]
    ensures t'.p.cellState == t.p.cellState[t.closedCells[r] := true]
    ensures var k := t.numClosedCells - 1;
      && t'.closedCells[k] == t.closedCells[r] && t'.closedCells[r] == t.closedCells[k]
      && (forall i :: 0 <= i < t.n * t.n && i != r && i != k ==> t'.closedCells[i] == t.closedCells[i])
    ensures NumberOfOpenSites(t'.p) == NumberOfOpenSites(t.p) + 1
    ensures Percolating(t.p) ==> Percolating(t'.p)
  {
    var ((row, col), t1) := PickRandomClosedCell(t, r).value;
    var p' := Open(t1.p, row, col);
    OpenCounts(t1.p, row, col);
    var t' := t1.(p := p', numClosedCells := t1.numClosedCells - 1);
    OpenedPoolStaysValid(t1, t', row, col);
    t'
  }

  lemma OpenedPoolStaysValid(t1: Tester, t': Tester, row: int, col: int)
    requires Valid(t1) && t1.numClosedCells > 0 && InGrid(t1.n, row, col)
    requires RowColToId(t1.n, row, col) == t1.closedCells[t1.numClosedCells - 1]
    requires Percolation.Valid(t'.p) && t'.p.n == t1.n && t'.n == t1.n
    requires t'.p.cellState == t1.p.cellState[RowColToId(t1.n, row, col) := true]
    requires t'.closedCells == t1.closedCells && t'.numClosedCells == t1.numClosedCells - 1
    requires NumberOfOpenSites(t'.p) == NumberOfOpenSites(t1.p) + 1
    ensures Valid(t')
  {
    var n, k := t1.n, t1.numClosedCells - 1;
    forall i | 0 <= i < n * n
      ensures i < t'.numClosedCells <==> !t'.p.cellState[t'.closedCells[i]]
    {
      if i != k {
        assert t1.closedCells[i] != t1.closedCells[k];
      }
    }
  }

  /** Whether a valid grid percolates depends on its open cells alone. */
  lemma SameCellsSamePercolating(g1: Grid, g2: Grid)
    requires Percolation.Valid(g1) && Percolation.Valid(g2)
    requires g1.n == g2.n && g1.cellState == g2.cellState
    ensures Percolating(g1) <==> Percolating(g2)
  {
  }

  /** A pool that is empty means every cell is open, so the grid percolates. */
  lemma EmptyPoolPercolates(t: Tester)
    requires Valid(t) && t.numClosedCells == 0
    ensures Percolating(t.p)
  {
    FullCountMeansAllOpen(t.p.cellState);
    OpenGridPercolates(t.n, t.p.cellState);
  }

  /**
   `run_to_percolation`: open random closed cells until the grid
   percolates. `draws[k]` is what the k-th `randint` call returns, so it
   lies below the number of cells closed at that point. The result is the
   proportion `numOpen / cells`, kept as the pair of naturals.
   */
  method RunToPercolation(t: Tester, draws: seq<int>) returns (numOpen: nat, cells: nat, t': Tester)
    requires Valid(t)
    requires |draws| >= t.numClosedCells
    requires forall k :: 0 <= k < t.numClosedCells ==> 0 <= draws[k] < t.numClosedCells - k
    ensures Valid(t') && t'.n == t.n && cells == t.n * t.n
    ensures Percolating(t'.p) && Reach(t.n, t'.p.cellState, true, Bottom(t.n), Top(t.n))
    ensures numOpen == t.numClosedCells - t'.numClosedCells
    ensures NumberOfOpenSites(t'.p) == NumberOfOpenSites(t.p) + numOpen
    ensures numOpen <= t.numClosedCells
    ensures Percolating(t.p) <==> numOpen == 0
    ensures NumberOfOpenSites(t.p) == 0 ==> numOpen == NumberOfOpenSites(t'.p)
    ensures numOpen > 0 ==> LastOpenedWasNeeded(t')
    ensures StaysOpen(t, t')
    ensures t'.p.cellState == AfterDraws(t, draws, numOpen).p.cellState
    ensures t'.closedCells == AfterDraws(t, draws, numOpen).closedCells
    ensures NotYet(t, draws, numOpen)
  {
    var u := t;
    numOpen := 0;
    var perc;
    perc, u := AskPercolates(u);
    ghost var percolatedAtStart := perc;
    while !perc
      invariant RunInv(t, u, numOpen) && (perc <==> Percolating(u.p))
      invariant percolatedAtStart ==> numOpen == 0
      invariant numOpen > 0 ==> LastOpenedWasNeeded(u)
      invariant StaysOpen(t, u)
      invariant u.p.cellState == AfterDraws(t, draws, numOpen).p.cellState
      invariant u.closedCells == AfterDraws(t, draws, numOpen).closedCells
      invariant NotYet(t, draws, numOpen)
      decreases t.numClosedCells - numOpen
    {
      PoolNotEmpty(t, u, numOpen);
      NotYetStep(t, draws, numOpen, u);
      var u0 := u;
      perc, u := Trial(t, u, numOpen, draws[numOpen]);
      DrawStep(t, draws, numOpen, u0);
      numOpen := numOpen + 1;
    }
    if numOpen == 0 {
      SameCellsSamePercolating(t.p, u.p);
    }
    t' := u;
    cells := t.n * t.n;
  }

  /**
   The run stopped at the first percolating grid: the cell opened last sits
   just past the closed prefix, and closing it again leaves a grid in which
   no path joins the bottom row to the top row.
   */
  ghost predicate LastOpenedWasNeeded(u: Tester) {
    && u.n > 0 && |u.p.cellState| == u.n * u.n
    && 0 <= u.numClosedCells < |u.closedCells|
    && 0 <= u.closedCells[u.numClosedCells] < u.n * u.n
    && !Reach(u.n, u.p.cellState[u.closedCells[u.numClosedCells] := false], true, Bottom(u.n), Top(u.n))
  }

  /** Every cell open in `t` is still open in `u`. */
  ghost predicate StaysOpen(t: Tester, u: Tester) {
    && |t.p.cellState| == t.n * t.n && |u.p.cellState| == t.n * t.n
    && forall i :: 0 <= i < t.n * t.n && t.p.cellState[i] ==> u.p.cellState[i]
  }

  /**
   Opening a drawn cell in a grid that does not percolate makes that cell
   the needed last one, and closes nothing; `u'` is the opened tester with
   its structures possibly compressed by later queries.
   */
  lemma OpeningWasNeeded(u: Tester, r: int, u': Tester)
    requires Valid(u) && 0 <= r < u.numClosedCells && !Percolating(u.p)
    requires var u1 := OpenRandomCell(u, r);
      && u'.n == u1.n && u'.p.n == u1.p.n && u'.numClosedCells == u1.numClosedCells
      && u'.closedCells == u1.closedCells && u'.p.cellState == u1.p.cellState
    ensures LastOpenedWasNeeded(u') && StaysOpen(u, u')
  {
    var u1 := OpenRandomCell(u, r);
    var x := u.closedCells[r];
    assert u1.closedCells[u1.numClosedCells] == x;
    assert u1.p.cellState[x := false] == u.p.cellState;
  }

  /**
   The reference run: the tester after the first `k` draws have each
   opened the cell they select, whether or not the grid percolated on the
   way.
   */
  ghost function AfterDraws(t: Tester, draws: seq<int>, k: nat): (u: Tester)
    requires Valid(t) && k <= t.numClosedCells && k <= |draws|
    requires forall j :: 0 <= j < k ==> 0 <= draws[j] < t.numClosedCells - j
    ensures Valid(u) && u.n == t.n && u.numClosedCells == t.numClosedCells - k
    decreases k
  {
    if k == 0 then t else OpenRandomCell(AfterDraws(t, draws, k - 1), draws[k - 1])
  }

  /** None of the grids the reference run passes through before its `m`-th draw percolates. */
  ghost predicate NotYet(t: Tester, draws: seq<int>, m: nat)
    requires Valid(t) && m <= t.numClosedCells && m <= |draws|
    requires forall j :: 0 <= j < m ==> 0 <= draws[j] < t.numClosedCells - j
  {
    forall k :: 0 <= k < m ==> !Percolating(AfterDraws(t, draws, k).p)
  }

  /** A run standing at the reference run's `m`-th grid, which does not percolate, extends `NotYet` by one draw. */
  lemma NotYetStep(t: Tester, draws: seq<int>, m: nat, u: Tester)
    requires Valid(t) && m < t.numClosedCells && m < |draws|
    requires forall j :: 0 <= j <= m ==> 0 <= draws[j] < t.numClosedCells - j
    requires NotYet(t, draws, m)
    requires Valid(u) && u.n == t.n && !Percolating(u.p)
    requires u.p.cellState == AfterDraws(t, draws, m).p.cellState
    ensures NotYet(t, draws, m + 1)
  {
    var a := AfterDraws(t, draws, m);
    SameCellsSamePercolating(u.p, a.p);
    assert !Percolating(a.p);
    forall k | 0 <= k < m + 1
      ensures !Percolating(AfterDraws(t, draws, k).p)
    {
      if k == m {
        assert AfterDraws(t, draws, k) == a;
      } else {
        assert k < m;
      }
    }
  }

  /**
   Opening the same draw in two testers with the same cells and pool gives
   the same cells and pool: path halving inside the structures does not
   affect which cell is opened.
   */
  lemma OpenAgrees(a: Tester, b: Tester, r: int)
    requires Valid(a) && Valid(b) && a.n == b.n && a.numClosedCells == b.numClosedCells
    requires a.p.cellState == b.p.cellState && a.closedCells == b.closedCells
    requires 0 <= r < a.numClosedCells
    ensures OpenRandomCell(a, r).p.cellState == OpenRandomCell(b, r).p.cellState
    ensures OpenRandomCell(a, r).closedCells == OpenRandomCell(b, r).closedCells
  {
    var a1, b1 := OpenRandomCell(a, r), OpenRandomCell(b, r);
    assert |a1.closedCells| == |b1.closedCells| == a.n * a.n;
    forall i | 0 <= i < a.n * a.n
      ensures a1.closedCells[i] == b1.closedCells[i]
    {
    }
  }

  /** A run that agrees with the reference run after `k` draws agrees with it after draw `k` too. */
  lemma DrawStep(t: Tester, draws: seq<int>, k: nat, u: Tester)
    requires Valid(t) && k < t.numClosedCells && k < |draws|
    requires forall j :: 0 <= j <= k ==> 0 <= draws[j] < t.numClosedCells - j
    requires Valid(u) && u.n == t.n && u.numClosedCells == t.numClosedCells - k
    requires u.p.cellState == AfterDraws(t, draws, k).p.cellState
    requires u.closedCells == AfterDraws(t, draws, k).closedCells
    ensures OpenRandomCell(u, draws[k]).p.cellState == AfterDraws(t, draws, k + 1).p.cellState
    ensures OpenRandomCell(u, draws[k]).closedCells == AfterDraws(t, draws, k + 1).closedCells
  {
    OpenAgrees(u, AfterDraws(t, draws, k), draws[k]);
  }

  /** What the run keeps after `numOpen` trials: the pool shrank by exactly the cells it opened. */
  ghost predicate RunInv(t: Tester, u: Tester, numOpen: nat) {
    && Valid(t) && Valid(u) && u.n == t.n
    && numOpen <= t.numClosedCells && u.numClosedCells == t.numClosedCells - numOpen
    && NumberOfOpenSites(u.p) == NumberOfOpenSites(t.p) + numOpen
    && (numOpen == 0 ==> u.p.cellState == t.p.cellState)
  }

  /** While the grid does not percolate, some cell is still closed. */
  lemma PoolNotEmpty(t: Tester, u: Tester, numOpen: nat)
    requires RunInv(t, u, numOpen) && !Percolating(u.p)
    ensures numOpen < t.numClosedCells
  {
    if u.numClosedCells == 0 {
      EmptyPoolPercolates(u);
    }
  }

  /** One trial of the run: open a random closed cell, then ask again whether the grid percolates. */
  method Trial(ghost t: Tester, u: Tester, numOpen: nat, r: int) returns (perc: bool, u': Tester)
    requires RunInv(t, u, numOpen) && !Percolating(u.p)
    requires 0 <= r < t.numClosedCells - numOpen
    ensures RunInv(t, u', numOpen + 1) && (perc <==> Percolating(u'.p))
    ensures LastOpenedWasNeeded(u')
    ensures StaysOpen(u, u')
    ensures u'.p.cellState == OpenRandomCell(u, r).p.cellState
    ensures u'.closedCells == OpenRandomCell(u, r).closedCells
  {
    var u1 := OpenRandomCell(u, r);
    perc, u' := AskPercolates(u1);
    OpeningWasNeeded(u, r, u');
  }

  /** The loop test: `percolates` answers and compresses its structure, the pool stays. */
  method AskPercolates(t: Tester) returns (perc: bool, t': Tester)
    requires Valid(t)
    ensures perc <==> Percolating(t.p)
    ensures Valid(t') && t'.n == t.n && t'.p.n == t.p.n && t'.numClosedCells == t.numClosedCells
    ensures t'.p.cellState == t.p.cellState && t'.closedCells == t.closedCells
  {
    var r := Percolates(t.p);
    perc := r.0;
    t' := t.(p := r.1);
    assert NumberOfOpenSites(t'.p) == NumberOfOpenSites(t.p);
  }

  /** The closed prefix lists exactly the closed cells. */
  lemma ClosedPrefixIsClosedCells(t: Tester, x: int)
    requires Valid(t) && IsCell(t.n, x)
    ensures !t.p.cellState[x] <==> x in t.closedCells[..t.numClosedCells]
  {
    assert x in t.closedCells;
    var i :| 0 <= i < t.n * t.n && t.closedCells[i] == x;
    if x in t.closedCells[..t.numClosedCells] {
      var j :| 0 <= j < t.numClosedCells && t.closedCells[j] == x;
      assert i == j;
    }
    if !t.p.cellState[x] {
      assert t.closedCells[..t.numClosedCells][i] == x;
    }
  }

  /** `_cell_id_to_row_col` on a 2-by-2 grid. */
  lemma CellIdToRowColExample()
    ensures CellIdToRowCol(2, 0) == (1, 1) && CellIdToRowCol(2, 1) == (1, 2)
    ensures CellIdToRowCol(2, 2) == (2, 1) && CellIdToRowCol(2, 3) == (2, 2)
  {
  }

  /** The pick example on a fresh 2-by-2 tester, with `randint` drawing 0. */
  lemma PickExample()
    ensures New(2).Ok? && New(2).value.closedCells == [0, 1, 2, 3]
    ensures var res := PickRandomClosedCell(New(2).value, 0);
      res.Ok? && res.value.0 == (1, 1) && res.value.1.closedCells == [3, 1, 2, 0]
  {
    var t := New(2).value;
    assert t.closedCells == [0, 1, 2, 3];
    assert t.numClosedCells == 4;
    var cc := t.closedCells[0 := t.closedCells[3]][3 := t.closedCells[0]];
    assert cc == [3, 1, 2, 0];
    assert CellIdToRowCol(2, 0) == (1, 1);
    assert PickRandomClosedCell(t, 0) == Ok(((1, 1), t.(closedCells := cc)));
  }
}

=== FILE: percolation.dfy ===
/**
 The percolation grid: an n-by-n array of open/closed cells and two
 union-find structures over the n*n cells plus two virtual elements.

 `wqu` answers "is this cell full" and is never joined to `Bottom(n)`;
 `wquConnected` answers "does the grid percolate" and joins every open
 bottom-row cell to `Bottom(n)`. Keeping the bottom links out of `wqu` is
 what prevents backwash: a bottom-row cell reported full only because the
 grid percolates through some other bottom-row cell.

 The invariant `Valid` says more than the structures' shapes: the groups of
 each structure are exactly the connected components of the open-cell graph
 of `OpenPaths` (without, resp. with, the bottom links).
 */
module Percolation {
  import opened Wrappers
  import opened Lattice
  import opened OpenPaths
  import opened WeightedQuickUnion

  datatype Grid = Grid(n: int, cellState: seq<bool>, wqu: Wqu, wquConnected: Wqu)

  /** The groups of `u` are exactly the components of the graph. */
  ghost predicate Tracks(u: Wqu, n: int, open: seq<bool>, withBottom: bool)
    requires n > 0 && |open| == n * n && WeightedQuickUnion.Valid(u) && Size(u) == n * n + 2
  {
    forall x, y :: IsNode(n, x) && IsNode(n, y) ==>
      (Joined(u, x, y) <==> Reach(n, open, withBottom, x, y))
  }

  ghost predicate Shaped(g: Grid) {
    && g.n > 0
    && |g.cellState| == g.n * g.n
    && WeightedQuickUnion.Valid(g.wqu) && Size(g.wqu) == g.n * g.n + 2
    && WeightedQuickUnion.Valid(g.wquConnected) && Size(g.wquConnected) == g.n * g.n + 2
  }

  ghost predicate Valid(g: Grid) {
    && Shaped(g)
    && Tracks(g.wqu, g.n, g.cellState, false)
    && Tracks(g.wquConnected, g.n, g.cellState, true)
  }

  /** What `percolates` reports. */
  ghost predicate Percolating(g: Grid)
    requires Shaped(g)
  {
    Joined(g.wquConnected, Bottom(g.n), Top(g.n))
  }

  /** The constructor: a closed grid, or `InvalidConfig` for a side that is not positive. */
  function New(n: int): (r: Result<Grid>)
    ensures n <= 0 <==> r == Err(InvalidConfig)
    ensures r.Ok? ==>
      && Valid(r.value) && r.value.n == n
      && (forall i :: 0 <= i < n * n ==> !r.value.cellState[i])
      && !Percolating(r.value)
  {
    if n <= 0 then Err(InvalidConfig)
    else
      var g := Grid(n, seq(n * n, i => false), WeightedQuickUnion.New(n * n + 2), WeightedQuickUnion.New(n * n + 2));
      forall x, y | IsNode(n, x) && IsNode(n, y)
        ensures Reach(n, g.cellState, false, x, y) <==> x == y
        ensures Reach(n, g.cellState, true, x, y) <==> x == y
      {
        ClosedGridReach(n, g.cellState, false, x, y);
        ClosedGridReach(n, g.cellState, true, x, y);
      }
      Ok(g)
  }

  /** `is_open`: a lookup of the cell state. */
  function IsOpen(g: Grid, row: int, col: int): (r: bool)
    requires Shaped(g) && InGrid(g.n, row, col)
    ensures r <==> RowColToId(g.n, row, col) in OpenIds(g.cellState)
  {
    g.cellState[RowColToId(g.n, row, col)]
  }

  /** `number_of_open_sites`: how many cells are open. */
  function NumberOfOpenSites(g: Grid): nat {
    CountOpen(g.cellState)
  }

  function CountOpen(s: seq<bool>): (c: nat)
    ensures c <= |s|
  {
    if |s| == 0 then 0 else CountOpen(s[..|s| - 1]) + (if s[|s| - 1] then 1 else 0)
  }

  /** The ids of the open cells. */
  function OpenIds(s: seq<bool>): set<int> {
    set i | 0 <= i < |s| && s[i]
  }

  /** The running count agrees with the number of open cells. */
  lemma {:induction false} CountOpenIsCardinality(s: seq<bool>)
    ensures CountOpen(s) == |OpenIds(s)|
  {
    if |s| > 0 {
      var t := s[..|s| - 1];
      CountOpenIsCardinality(t);
      if s[|s| - 1] {
        assert OpenIds(s) == OpenIds(t) + {|s| - 1};
      } else {
        assert OpenIds(s) == OpenIds(t);
      }
    }
  }

  /** Setting one closed entry to open adds exactly one to the count. */
  lemma {:induction false} CountOpenAfterOpening(s: seq<bool>, i: int)
    requires 0 <= i < |s| && !s[i]
    ensures CountOpen(s[i := true]) == CountOpen(s) + 1
  {
    CountOpenIsCardinality(s);
    CountOpenIsCardinality(s[i := true]);
    assert OpenIds(s[i := true]) == OpenIds(s) + {i};
  }

  /**
   `number_of_open_sites` counts exactly the cells that `is_open` reports
   open: the open ids are the ids of those cells.
   */
  lemma NumberOfOpenSitesCountsOpenCells(g: Grid, x: int)
    requires Shaped(g)
    ensures NumberOfOpenSites(g) == |OpenIds(g.cellState)|
    ensures x in OpenIds(g.cellState) <==> IsCell(g.n, x) && IsOpen(g, Row(g.n, x), Col(g.n, x))
  {
    CountOpenIsCardinality(g.cellState);
    if IsCell(g.n, x) {
      IdOfRowCol(g.n, x);
    }
  }

  /** A count equal to the length means every entry is open. */
  lemma {:induction false} FullCountMeansAllOpen(s: seq<bool>)
    requires CountOpen(s) == |s|
    ensures forall i :: 0 <= i < |s| ==> s[i]
  {
    if |s| > 0 {
      var t := s[..|s| - 1];
      FullCountMeansAllOpen(t);
      assert forall i :: 0 <= i < |t| ==> s[i] == t[i];
    }
  }

  /** Every group of `u` lies inside one component of the graph. */
  ghost predicate Within(u: Wqu, n: int, open: seq<bool>, withBottom: bool)
    requires n > 0 && |open| == n * n && WeightedQuickUnion.Valid(u) && Size(u) == n * n + 2
  {
    forall x, y :: IsNode(n, x) && IsNode(n, y) && Joined(u, x, y) ==> Reach(n, open, withBottom, x, y)
  }

  /** Every link of the graph joins its ends in `u`. */
  ghost predicate Covers(u: Wqu, n: int, open: seq<bool>, withBottom: bool)
    requires n > 0 && |open| == n * n && WeightedQuickUnion.Valid(u) && Size(u) == n * n + 2
  {
    forall x, y :: IsNode(n, x) && IsNode(n, y) && Edge(n, open, withBottom, x, y) ==> Joined(u, x, y)
  }

  lemma {:induction false} PathJoined(u: Wqu, n: int, open: seq<bool>, withBottom: bool, s: seq<int>)
    requires n > 0 && |open| == n * n && WeightedQuickUnion.Valid(u) && Size(u) == n * n + 2
    requires Covers(u, n, open, withBottom) && IsPath(n, open, withBottom, s)
    ensures Joined(u, s[0], s[|s| - 1])
  {
    if |s| > 1 {
      var t := s[..|s| - 1];
      assert IsPath(n, open, withBottom, t);
      PathJoined(u, n, open, withBottom, t);
      assert Edge(n, open, withBottom, s[|s| - 2], s[|s| - 1]);
    }
  }

  /** A structure whose groups lie within components and that joins every link tracks the graph. */
  lemma WithinAndCoversTrack(u: Wqu, n: int, open: seq<bool>, withBottom: bool)
    requires n > 0 && |open| == n * n && WeightedQuickUnion.Valid(u) && Size(u) == n * n + 2
    requires Within(u, n, open, withBottom) && Covers(u, n, open, withBottom)
    ensures Tracks(u, n, open, withBottom)
  {
    forall x, y | IsNode(n, x) && IsNode(n, y) && Reach(n, open, withBottom, x, y)
      ensures Joined(u, x, y)
    {
      var s :| IsPath(n, open, withBottom, s) && s[0] == x && s[|s| - 1] == y;
      PathJoined(u, n, open, withBottom, s);
    }
  }

  /** Merging the ends of a path keeps every group within one component. */
  lemma MergeWithin(u: Wqu, u': Wqu, p: int, q: int, n: int, open: seq<bool>, withBottom: bool)
    requires n > 0 && |open| == n * n
    requires WeightedQuickUnion.Valid(u) && Size(u) == n * n + 2
    requires WeightedQuickUnion.Valid(u') && Size(u') == n * n + 2
    requires IsNode(n, p) && IsNode(n, q) && Merged(u, u', p, q)
    requires Within(u, n, open, withBottom) && Reach(n, open, withBottom, p, q)
    ensures Within(u', n, open, withBottom)
  {
    forall x, y | IsNode(n, x) && IsNode(n, y) && Joined(u', x, y)
      ensures Reach(n, open, withBottom, x, y)
    {
      if Joined(u, x, p) && Joined(u, y, q) {
        ReachSym(n, open, withBottom, y, q);
        ReachTrans(n, open, withBottom, x, p, q);
        ReachTrans(n, open, withBottom, x, q, y);
      } else if Joined(u, x, q) && Joined(u, y, p) {
        ReachSym(n, open, withBottom, p, q);
        ReachSym(n, open, withBottom, y, p);
        ReachTrans(n, open, withBottom, x, q, p);
        ReachTrans(n, open, withBottom, x, p, y);
      }
    }
  }

  /**
   What holds between the steps of `open`: both structures are well formed,
   their groups stay within the components of the new graph, and the
   fullness structure's groups stay inside the percolation structure's.
   */
  ghost predicate StepInv(a: Wqu, b: Wqu, n: int, open: seq<bool>)
    requires n > 0 && |open| == n * n
  {
    && WeightedQuickUnion.Valid(a) && Size(a) == n * n + 2
    && WeightedQuickUnion.Valid(b) && Size(b) == n * n + 2
    && Within(a, n, open, false) && Within(b, n, open, true)
    && Grows(a, b)
  }

  lemma MergedBothKeepsGrows(a: Wqu, b: Wqu, a': Wqu, b': Wqu, p: int, q: int)
    requires WeightedQuickUnion.Valid(a) && WeightedQuickUnion.Valid(b)
    requires WeightedQuickUnion.Valid(a') && WeightedQuickUnion.Valid(b')
    requires Size(a) == Size(b) == Size(a') == Size(b') && InRange(a, p) && InRange(a, q)
    requires Grows(a, b) && Merged(a, a', p, q) && Merged(b, b', p, q)
    ensures Grows(a', b')
  {
  }

  lemma GrowsTrans(a: Wqu, b: Wqu, c: Wqu)
    requires WeightedQuickUnion.Valid(a) && WeightedQuickUnion.Valid(b) && WeightedQuickUnion.Valid(c)
    requires Size(a) == Size(b) == Size(c)
    requires Grows(a, b) && Grows(b, c)
    ensures Grows(a, c)
  {
  }

  /** A step of `open` that merges the ends of a link (without bottom) in both structures. */
  lemma BothStepKeepsInv(a: Wqu, b: Wqu, a': Wqu, b': Wqu, p: int, q: int, n: int, open: seq<bool>)
    requires n > 0 && |open| == n * n && StepInv(a, b, n, open)
    requires WeightedQuickUnion.Valid(a') && Size(a') == n * n + 2
    requires WeightedQuickUnion.Valid(b') && Size(b') == n * n + 2
    requires IsNode(n, p) && IsNode(n, q) && Edge(n, open, false, p, q)
    requires Merged(a, a', p, q) && Merged(b, b', p, q)
    ensures StepInv(a', b', n, open)
    ensures Grows(a, a') && Grows(b, b') && Joined(a', p, q) && Joined(b', p, q)
  {
    ReachEdge(n, open, false, p, q);
    ReachEdge(n, open, true, p, q);
    MergeWithin(a, a', p, q, n, open, false);
    MergeWithin(b, b', p, q, n, open, true);
    MergedBothKeepsGrows(a, b, a', b', p, q);
    MergedGrows(a, a', p, q);
    MergedGrows(b, b', p, q);
  }

  /** The bottom step of `open`: merges a bottom link in the percolation structure only. */
  lemma BottomStepKeepsInv(a: Wqu, b: Wqu, b': Wqu, p: int, q: int, n: int, open: seq<bool>)
    requires n > 0 && |open| == n * n && StepInv(a, b, n, open)
    requires WeightedQuickUnion.Valid(b') && Size(b') == n * n + 2
    requires IsNode(n, p) && IsNode(n, q) && Edge(n, open, true, p, q)
    requires Merged(b, b', p, q)
    ensures StepInv(a, b', n, open)
    ensures Grows(b, b') && Joined(b', p, q)
  {
    ReachEdge(n, open, true, p, q);
    MergeWithin(b, b', p, q, n, open, true);
    MergedGrows(b, b', p, q);
    GrowsTrans(a, b, b');
  }

  /** The left neighbour: joined in both structures without asking first. */
  function UnionBoth(a: Wqu, b: Wqu, p: int, q: int): (r: (Wqu, Wqu))
    requires WeightedQuickUnion.Valid(a) && WeightedQuickUnion.Valid(b) && Size(a) == Size(b)
    requires InRange(a, p) && InRange(a, q)
    ensures WeightedQuickUnion.Valid(r.0) && Size(r.0) == Size(a)
    ensures WeightedQuickUnion.Valid(r.1) && Size(r.1) == Size(a)
    ensures Merged(a, r.0, p, q) && Merged(b, r.1, p, q)
  {
    (Union(a, p, q), Union(b, p, q))
  }

  /**
   The right, upper and lower neighbours: joined in both structures only when
   the fullness structure `a` does not connect them yet. Skipping is sound
   because every group of `a` lies inside a group of `b`.
   */
  function UnionBothUnlessConnected(a: Wqu, b: Wqu, p: int, q: int): (r: (Wqu, Wqu))
    requires WeightedQuickUnion.Valid(a) && WeightedQuickUnion.Valid(b) && Size(a) == Size(b)
    requires InRange(a, p) && InRange(a, q) && Grows(a, b)
    ensures WeightedQuickUnion.Valid(r.0) && Size(r.0) == Size(a)
    ensures WeightedQuickUnion.Valid(r.1) && Size(r.1) == Size(a)
    ensures Merged(a, r.0, p, q) && Merged(b, r.1, p, q)
  {
    var (c, a1) := Connected(a, p, q);
    if c then
      SamePartitionMerges(a, a1, p, q);
      SamePartitionMerges(b, b, p, q);
      (a1, b)
    else
      var a2 := Union(a1, p, q);
      MergedTransfer(a, a1, a2, p, q);
      (a2, Union(b, p, q))
  }

  /**
   A top-row cell: joined to `top` in both structures when the fullness
   structure does not connect them yet. Between the two unions the source
   prints `wquConnected.connected(top, cell)`; the printed value is dropped
   here but the path halving that call performs on `b` is kept.
   */
  function UnionTop(a: Wqu, b: Wqu, top: int, cell: int): (r: (Wqu, Wqu))
    requires WeightedQuickUnion.Valid(a) && WeightedQuickUnion.Valid(b) && Size(a) == Size(b)
    requires InRange(a, top) && InRange(a, cell) && Grows(a, b)
    ensures WeightedQuickUnion.Valid(r.0) && Size(r.0) == Size(a)
    ensures WeightedQuickUnion.Valid(r.1) && Size(r.1) == Size(a)
    ensures Merged(a, r.0, top, cell) && Merged(b, r.1, top, cell)
  {
    var (c, a1) := Connected(a, top, cell);
    if c then
      SamePartitionMerges(a, a1, top, cell);
      SamePartitionMerges(b, b, top, cell);
      (a1, b)
    else
      var a2 := Union(a1, top, cell);
      MergedTransfer(a, a1, a2, top, cell);
      var (_, b1) := Connected(b, top, cell);
      var b2 := Union(b1, top, cell);
      MergedTransfer(b, b1, b2, top, cell);
      (a2, b2)
  }

  /** A bottom-row cell: joined to `bottom` in the percolation structure only, unless already connected there. */
  function UnionBottom(b: Wqu, bottom: int, cell: int): (b': Wqu)
    requires WeightedQuickUnion.Valid(b) && InRange(b, bottom) && InRange(b, cell)
    ensures WeightedQuickUnion.Valid(b') && Size(b') == Size(b)
    ensures Merged(b, b', bottom, cell)
  {
    var (c, b1) := Connected(b, bottom, cell);
    if c then
      SamePartitionMerges(b, b1, bottom, cell);
      b1
    else
      var b2 := Union(b1, bottom, cell);
      MergedTransfer(b, b1, b2, bottom, cell);
      b2
  }

  /**
   One neighbour of the cell being opened (percolation.py lines 99-121): when `joinIt`
   (the neighbour exists and is open), join the two in both structures,
   asking the fullness structure first when `guarded`.
   */
  function NeighbourStep(a: Wqu, b: Wqu, n: int, ghost open: seq<bool>,
                         cell: int, nbr: int, joinIt: bool, guarded: bool): (r: (Wqu, Wqu))
    requires n > 0 && |open| == n * n && StepInv(a, b, n, open) && IsCell(n, cell)
    requires joinIt ==> IsCell(n, nbr) && Edge(n, open, false, cell, nbr)
    ensures StepInv(r.0, r.1, n, open) && Grows(a, r.0) && Grows(b, r.1)
    ensures joinIt ==> Joined(r.0, cell, nbr) && Joined(r.1, cell, nbr)
  {
    if !joinIt then (a, b)
    else
      var r := if guarded then UnionBothUnlessConnected(a, b, cell, nbr) else UnionBoth(a, b, cell, nbr);
      BothStepKeepsInv(a, b, r.0, r.1, cell, nbr, n, open);
      r
  }

  /** The top-row step of `open` (percolation.py lines 125-129). */
  function TopStep(a: Wqu, b: Wqu, n: int, ghost open: seq<bool>, cell: int, joinIt: bool): (r: (Wqu, Wqu))
    requires n > 0 && |open| == n * n && StepInv(a, b, n, open) && IsCell(n, cell)
    requires joinIt ==> Edge(n, open, false, cell, Top(n))
    ensures StepInv(r.0, r.1, n, open) && Grows(a, r.0) && Grows(b, r.1)
    ensures joinIt ==> Joined(r.0, cell, Top(n)) && Joined(r.1, cell, Top(n))
  {
    if !joinIt then (a, b)
    else
      var r := UnionTop(a, b, Top(n), cell);
      BothStepKeepsInv(a, b, r.0, r.1, Top(n), cell, n, open);
      r
  }

  /** The bottom-row step of `open` (percolation.py lines 130-132): the percolation structure only. */
  function BottomStep(a: Wqu, b: Wqu, n: int, ghost open: seq<bool>, cell: int, joinIt: bool): (b': Wqu)
    requires n > 0 && |open| == n * n && StepInv(a, b, n, open) && IsCell(n, cell)
    requires joinIt ==> Edge(n, open, true, cell, Bottom(n))
    ensures StepInv(a, b', n, open) && Grows(b, b')
    ensures joinIt ==> Joined(b', cell, Bottom(n))
  {
    if !joinIt then b
    else
      var b' := UnionBottom(b, Bottom(n), cell);
      BottomStepKeepsInv(a, b, b', Bottom(n), cell, n, open);
      b'
  }

  /** The links at a cell are its open neighbours and the virtual ids of its row. */
  lemma CellEdges(n: int, open: seq<bool>, wb: bool, row: int, col: int, y: int)
    requires n > 0 && |open| == n * n && InGrid(n, row, col)
    ensures var cell := RowColToId(n, row, col);
      Edge(n, open, wb, cell, y) <==>
        || (open[cell] && IsCell(n, y) && open[y] && Adjacent(n, cell, y))
        || (open[cell] && y == Top(n) && row == 1)
        || (wb && open[cell] && y == Bottom(n) && row == n)
  {
    var cell := RowColToId(n, row, col);
    AdjacentSymmetric(n, cell, y);
  }

  /** `u` joins the cell (row, col) to each of its open 4-neighbours. */
  ghost predicate JoinedToNeighbours(u: Wqu, n: int, open: seq<bool>, row: int, col: int)
    requires n > 0 && |open| == n * n && InGrid(n, row, col)
    requires WeightedQuickUnion.Valid(u) && Size(u) == n * n + 2
  {
    var cell := RowColToId(n, row, col);
    var left, right := RowColToId(n, row, col - 1), RowColToId(n, row, col + 1);
    var up, down := RowColToId(n, row - 1, col), RowColToId(n, row + 1, col);
    && (col > 1 && open[left] ==> Joined(u, cell, left))
    && (col < n && open[right] ==> Joined(u, cell, right))
    && (row > 1 && open[up] ==> Joined(u, cell, up))
    && (row < n && open[down] ==> Joined(u, cell, down))
  }

  lemma GrowsKeepsNeighbours(u: Wqu, u': Wqu, n: int, open: seq<bool>, row: int, col: int)
    requires n > 0 && |open| == n * n && InGrid(n, row, col)
    requires WeightedQuickUnion.Valid(u) && Size(u) == n * n + 2
    requires WeightedQuickUnion.Valid(u') && Size(u') == n * n + 2
    requires JoinedToNeighbours(u, n, open, row, col) && Grows(u, u')
    ensures JoinedToNeighbours(u', n, open, row, col)
  {
    AdjacentCells(n, row, col, RowColToId(n, row, col - 1));
    AdjacentCells(n, row, col, RowColToId(n, row, col + 1));
    AdjacentCells(n, row, col, RowColToId(n, row - 1, col));
    AdjacentCells(n, row, col, RowColToId(n, row + 1, col));
  }

  /** The cell is joined to every node it has a link to, given the joins `open` makes. */
  lemma CoveredAtCell(u: Wqu, n: int, open: seq<bool>, wb: bool, row: int, col: int)
    requires n > 0 && |open| == n * n && InGrid(n, row, col)
    requires WeightedQuickUnion.Valid(u) && Size(u) == n * n + 2
    requires JoinedToNeighbours(u, n, open, row, col)
    requires row == 1 ==> Joined(u, RowColToId(n, row, col), Top(n))
    requires wb && row == n ==> Joined(u, RowColToId(n, row, col), Bottom(n))
    ensures forall y :: IsNode(n, y) && Edge(n, open, wb, RowColToId(n, row, col), y) ==> Joined(u, RowColToId(n, row, col), y)
  {
    var cell := RowColToId(n, row, col);
    forall y | IsNode(n, y) && Edge(n, open, wb, cell, y)
      ensures Joined(u, cell, y)
    {
      CellEdges(n, open, wb, row, col, y);
      if IsCell(n, y) && Adjacent(n, cell, y) {
        AdjacentCells(n, row, col, y);
        assert open[y];
      } else if y == Top(n) {
        assert row == 1;
      } else {
        assert wb && y == Bottom(n) && row == n;
      }
    }
  }

  /** The fresh cell's links plus the old links, all joined, give the tracking invariant back. */
  lemma TracksAfterOpening(u0: Wqu, u: Wqu, n: int, open0: seq<bool>, wb: bool, cell: int)
    requires n > 0 && |open0| == n * n && IsCell(n, cell)
    requires WeightedQuickUnion.Valid(u0) && Size(u0) == n * n + 2
    requires WeightedQuickUnion.Valid(u) && Size(u) == n * n + 2
    requires Tracks(u0, n, open0, wb) && Grows(u0, u)
    requires Within(u, n, open0[cell := true], wb)
    requires forall y :: IsNode(n, y) && Edge(n, open0[cell := true], wb, cell, y) ==> Joined(u, cell, y)
    ensures Tracks(u, n, open0[cell := true], wb)
  {
    var open := open0[cell := true];
    forall x, y | IsNode(n, x) && IsNode(n, y) && Edge(n, open, wb, x, y)
      ensures Joined(u, x, y)
    {
      if x == cell {
      } else if y == cell {
        assert Edge(n, open, wb, y, x);
      } else {
        assert Edge(n, open0, wb, x, y);
        ReachEdge(n, open0, wb, x, y);
      }
    }
    WithinAndCoversTrack(u, n, open, wb);
  }

  /** Before the first step of `open`: the old groups lie within the new graph's components. */
  lemma OpeningStartsInv(g: Grid, cell: int)
    requires Valid(g) && IsCell(g.n, cell)
    ensures StepInv(g.wqu, g.wquConnected, g.n, g.cellState[cell := true])
  {
    var n, open := g.n, g.cellState[cell := true];
    assert MoreOpen(n, g.cellState, false, open, false);
    assert MoreOpen(n, g.cellState, true, open, true);
    assert MoreOpen(n, g.cellState, false, g.cellState, true);
    forall x, y | IsNode(n, x) && IsNode(n, y) && Joined(g.wqu, x, y)
      ensures Reach(n, open, false, x, y) && Joined(g.wquConnected, x, y)
    {
      ReachMono(n, g.cellState, false, open, false, x, y);
      ReachMono(n, g.cellState, false, g.cellState, true, x, y);
    }
    forall x, y | IsNode(n, x) && IsNode(n, y) && Joined(g.wquConnected, x, y)
      ensures Reach(n, open, true, x, y)
    {
      ReachMono(n, g.cellState, true, open, true, x, y);
    }
  }

  lemma StepJoinsKept(a: Wqu, a': Wqu, b: Wqu, b': Wqu, x: int, y: int, joinIt: bool)
    requires WeightedQuickUnion.Valid(a) && WeightedQuickUnion.Valid(a') && Size(a) == Size(a')
    requires WeightedQuickUnion.Valid(b) && WeightedQuickUnion.Valid(b') && Size(b) == Size(b')
    requires joinIt ==> InRange(a, x) && InRange(a, y) && InRange(b, x) && InRange(b, y)
    requires Grows(a, a') && Grows(b, b')
    requires joinIt ==> Joined(a, x, y) && Joined(b, x, y)
    ensures joinIt ==> Joined(a', x, y) && Joined(b', x, y)
  {
  }

  /** Joins of the horizontal neighbours made before `u'` and of the vertical ones made in it. */
  lemma NeighboursFromJoins(u: Wqu, u': Wqu, n: int, open: seq<bool>, row: int, col: int)
    requires n > 0 && |open| == n * n && InGrid(n, row, col)
    requires WeightedQuickUnion.Valid(u) && Size(u) == n * n + 2
    requires WeightedQuickUnion.Valid(u') && Size(u') == n * n + 2 && Grows(u, u')
    requires col > 1 && open[RowColToId(n, row, col - 1)] ==> Joined(u, RowColToId(n, row, col), RowColToId(n, row, col - 1))
    requires col < n && open[RowColToId(n, row, col + 1)] ==> Joined(u, RowColToId(n, row, col), RowColToId(n, row, col + 1))
    requires row > 1 && open[RowColToId(n, row - 1, col)] ==> Joined(u', RowColToId(n, row, col), RowColToId(n, row - 1, col))
    requires row < n && open[RowColToId(n, row + 1, col)] ==> Joined(u', RowColToId(n, row, col), RowColToId(n, row + 1, col))
    ensures JoinedToNeighbours(u', n, open, row, col)
  {
  }

  /** Each open in-grid 4-neighbour of an open cell is linked to it. */
  lemma NeighbourEdges(n: int, open: seq<bool>, row: int, col: int)
    requires n > 0 && |open| == n * n && InGrid(n, row, col) && open[RowColToId(n, row, col)]
    ensures var cell, left := RowColToId(n, row, col), RowColToId(n, row, col - 1);
      col > 1 && open[left] ==> IsCell(n, left) && Edge(n, open, false, cell, left)
    ensures var cell, right := RowColToId(n, row, col), RowColToId(n, row, col + 1);
      col < n && open[right] ==> IsCell(n, right) && Edge(n, open, false, cell, right)
    ensures var cell, up := RowColToId(n, row, col), RowColToId(n, row - 1, col);
      row > 1 && open[up] ==> IsCell(n, up) && Edge(n, open, false, cell, up)
    ensures var cell, down := RowColToId(n, row, col), RowColToId(n, row + 1, col);
      row < n && open[down] ==> IsCell(n, down) && Edge(n, open, false, cell, down)
  {
    AdjacentCells(n, row, col, RowColToId(n, row, col - 1));
    AdjacentCells(n, row, col, RowColToId(n, row, col + 1));
    AdjacentCells(n, row, col, RowColToId(n, row - 1, col));
    AdjacentCells(n, row, col, RowColToId(n, row + 1, col));
  }

  /** Two consecutive neighbour steps; both joins survive the second step. */
  function TwoSteps(a: Wqu, b: Wqu, n: int, ghost open: seq<bool>, cell: int,
                    p: int, joinP: bool, guardP: bool, q: int, joinQ: bool): (r: (Wqu, Wqu))
    requires n > 0 && |open| == n * n && StepInv(a, b, n, open) && IsCell(n, cell)
    requires joinP ==> IsCell(n, p) && Edge(n, open, false, cell, p)
    requires joinQ ==> IsCell(n, q) && Edge(n, open, false, cell, q)
    ensures StepInv(r.0, r.1, n, open) && Grows(a, r.0) && Grows(b, r.1)
    ensures joinP ==> Joined(r.0, cell, p) && Joined(r.1, cell, p)
    ensures joinQ ==> Joined(r.0, cell, q) && Joined(r.1, cell, q)
  {
    var (a1, b1) := NeighbourStep(a, b, n, open, cell, p, joinP, guardP);
    var (a2, b2) := NeighbourStep(a1, b1, n, open, cell, q, joinQ, true);
    GrowsTrans(a, a1, a2);
    GrowsTrans(b, b1, b2);
    StepJoinsKept(a1, a2, b1, b2, cell, p, joinP);
    (a2, b2)
  }

  /** The left and right neighbour steps of `open` (percolation.py lines 99-109). */
  function LinkHorizontal(a: Wqu, b: Wqu, n: int, open: seq<bool>, row: int, col: int): (r: (Wqu, Wqu))
    requires n > 0 && |open| == n * n && InGrid(n, row, col) && StepInv(a, b, n, open)
    requires open[RowColToId(n, row, col)]
    ensures StepInv(r.0, r.1, n, open) && Grows(a, r.0) && Grows(b, r.1)
    ensures var cell, left := RowColToId(n, row, col), RowColToId(n, row, col - 1);
      col > 1 && open[left] ==> Joined(r.0, cell, left) && Joined(r.1, cell, left)
    ensures var cell, right := RowColToId(n, row, col), RowColToId(n, row, col + 1);
      col < n && open[right] ==> Joined(r.0, cell, right) && Joined(r.1, cell, right)
  {
    var cell := RowColToId(n, row, col);
    var left, right := RowColToId(n, row, col - 1), RowColToId(n, row, col + 1);
    NeighbourEdges(n, open, row, col);
    TwoSteps(a, b, n, open, cell, left, col > 1 && open[left], false, right, col < n && open[right])
  }

  /** The upper and lower neighbour steps of `open` (percolation.py lines 111-121). */
  function LinkVertical(a: Wqu, b: Wqu, n: int, open: seq<bool>, row: int, col: int): (r: (Wqu, Wqu))
    requires n > 0 && |open| == n * n && InGrid(n, row, col) && StepInv(a, b, n, open)
    requires open[RowColToId(n, row, col)]
    ensures StepInv(r.0, r.1, n, open) && Grows(a, r.0) && Grows(b, r.1)
    ensures var cell, up := RowColToId(n, row, col), RowColToId(n, row - 1, col);
      row > 1 && open[up] ==> Joined(r.0, cell, up) && Joined(r.1, cell, up)
    ensures var cell, down := RowColToId(n, row, col), RowColToId(n, row + 1, col);
      row < n && open[down] ==> Joined(r.0, cell, down) && Joined(r.1, cell, down)
  {
    var cell := RowColToId(n, row, col);
    var up, down := RowColToId(n, row - 1, col), RowColToId(n, row + 1, col);
    NeighbourEdges(n, open, row, col);
    TwoSteps(a, b, n, open, cell, up, row > 1 && open[up], true, down, row < n && open[down])
  }

  /** The four neighbour steps of `open` (percolation.py lines 99-121), in the source's order. */
  function LinkNeighbours(a: Wqu, b: Wqu, n: int, open: seq<bool>, row: int, col: int): (r: (Wqu, Wqu))
    requires n > 0 && |open| == n * n && InGrid(n, row, col) && StepInv(a, b, n, open)
    requires open[RowColToId(n, row, col)]
    ensures StepInv(r.0, r.1, n, open) && Grows(a, r.0) && Grows(b, r.1)
    ensures JoinedToNeighbours(r.0, n, open, row, col) && JoinedToNeighbours(r.1, n, open, row, col)
  {
    var (a2, b2) := LinkHorizontal(a, b, n, open, row, col);
    var (a4, b4) := LinkVertical(a2, b2, n, open, row, col);
    GrowsTrans(a, a2, a4);
    GrowsTrans(b, b2, b4);
    NeighboursFromJoins(a2, a4, n, open, row, col);
    NeighboursFromJoins(b2, b4, n, open, row, col);
    (a4, b4)
  }

  /** The top-row and bottom-row steps of `open` (percolation.py lines 125-132); the neighbour joins survive them. */
  function LinkVirtual(a: Wqu, b: Wqu, n: int, ghost open: seq<bool>, row: int, col: int): (r: (Wqu, Wqu))
    requires n > 0 && |open| == n * n && InGrid(n, row, col) && StepInv(a, b, n, open)
    requires open[RowColToId(n, row, col)]
    requires JoinedToNeighbours(a, n, open, row, col) && JoinedToNeighbours(b, n, open, row, col)
    ensures StepInv(r.0, r.1, n, open) && Grows(a, r.0) && Grows(b, r.1)
    ensures JoinedToNeighbours(r.0, n, open, row, col) && JoinedToNeighbours(r.1, n, open, row, col)
    ensures row == 1 ==> Joined(r.0, RowColToId(n, row, col), Top(n)) && Joined(r.1, RowColToId(n, row, col), Top(n))
    ensures row == n ==> Joined(r.1, RowColToId(n, row, col), Bottom(n))
  {
    var cell := RowColToId(n, row, col);
    var (a1, b1) := TopStep(a, b, n, open, cell, row == 1);
    var b2 := BottomStep(a1, b1, n, open, cell, row == n);
    GrowsTrans(b, b1, b2);
    StepJoinsKept(a1, a1, b1, b2, cell, Top(n), row == 1);
    GrowsKeepsNeighbours(a, a1, n, open, row, col);
    GrowsKeepsNeighbours(b, b2, n, open, row, col);
    (a1, b2)
  }

  /** After every step the two structures track the graph with the cell opened. */
  lemma OpeningTracks(g: Grid, a: Wqu, b: Wqu, row: int, col: int)
    requires Valid(g) && InGrid(g.n, row, col)
    requires var cs := g.cellState[RowColToId(g.n, row, col) := true];
      && StepInv(a, b, g.n, cs)
      && Grows(g.wqu, a) && Grows(g.wquConnected, b)
      && JoinedToNeighbours(a, g.n, cs, row, col) && JoinedToNeighbours(b, g.n, cs, row, col)
      && (row == 1 ==> Joined(a, RowColToId(g.n, row, col), Top(g.n)) && Joined(b, RowColToId(g.n, row, col), Top(g.n)))
      && (row == g.n ==> Joined(b, RowColToId(g.n, row, col), Bottom(g.n)))
    ensures Valid(Grid(g.n, g.cellState[RowColToId(g.n, row, col) := true], a, b))
  {
    var n, cell := g.n, RowColToId(g.n, row, col);
    var cs := g.cellState[cell := true];
    CoveredAtCell(a, n, cs, false, row, col);
    CoveredAtCell(b, n, cs, true, row, col);
    TracksAfterOpening(g.wqu, a, n, g.cellState, false, cell);
    TracksAfterOpening(g.wquConnected, b, n, g.cellState, true, cell);
  }

  /** `open` on a closed cell (percolation.py lines 97-133). */
  function OpenClosed(g: Grid, row: int, col: int): (g': Grid)
    requires Valid(g) && InGrid(g.n, row, col) && !IsOpen(g, row, col)
    ensures Valid(g') && g'.n == g.n
    ensures g'.cellState == g.cellState[RowColToId(g.n, row, col) := true]
    ensures Grows(g.wqu, g'.wqu) && Grows(g.wquConnected, g'.wquConnected)
  {
    var n := g.n;
    var cell := RowColToId(n, row, col);
    var cs := g.cellState[cell := true];
    OpeningStartsInv(g, cell);
    var (a4, b4) := LinkNeighbours(g.wqu, g.wquConnected, n, cs, row, col);
    var (a5, b6) := LinkVirtual(a4, b4, n, cs, row, col);
    GrowsTrans(g.wqu, a4, a5);
    GrowsTrans(g.wquConnected, b4, b6);
    OpeningTracks(g, a5, b6, row, col);
    Grid(n, cs, a5, b6)
  }

  /**
   `open`: opens the cell at (row, col) and links it to its open neighbours
   and, on the top or bottom row, to the virtual elements. Opening an open
   cell changes nothing.
   */
  function Open(g: Grid, row: int, col: int): (g': Grid)
    requires Valid(g) && InGrid(g.n, row, col)
    ensures Valid(g') && g'.n == g.n && IsOpen(g', row, col)
    ensures g'.cellState == g.cellState[RowColToId(g.n, row, col) := true]
    ensures IsOpen(g, row, col) ==> g' == g
    ensures Grows(g.wqu, g'.wqu) && Grows(g.wquConnected, g'.wquConnected)
  {
    if IsOpen(g, row, col) then
      assert g.cellState[RowColToId(g.n, row, col) := true] == g.cellState;
      g
    else OpenClosed(g, row, col)
  }

  /** Opening a closed cell adds one to the count, opening an open one adds nothing. */
  lemma OpenCounts(g: Grid, row: int, col: int)
    requires Valid(g) && InGrid(g.n, row, col)
    ensures NumberOfOpenSites(Open(g, row, col)) == NumberOfOpenSites(g) + (if IsOpen(g, row, col) then 0 else 1)
  {
    if !IsOpen(g, row, col) {
      CountOpenAfterOpening(g.cellState, RowColToId(g.n, row, col));
    }
  }

  /** Opening a cell leaves every other cell as it was. */
  lemma OpenTouchesOneCell(g: Grid, row: int, col: int, r: int, c: int)
    requires Valid(g) && InGrid(g.n, row, col) && InGrid(g.n, r, c) && (r, c) != (row, col)
    ensures IsOpen(Open(g, row, col), r, c) == IsOpen(g, r, c)
  {
    if RowColToId(g.n, r, c) == RowColToId(g.n, row, col) {
      RowColToIdInjective(g.n, r, c, row, col);
    }
  }

  /**
   After `open`, the cell is connected in both structures to each open
   neighbour and, on the top row, to `Top(n)`; on the bottom row it is
   connected to `Bottom(n)` in the percolation structure only.
   */
  lemma OpenLinks(g: Grid, row: int, col: int, y: int)
    requires Valid(g) && InGrid(g.n, row, col)
    requires IsNode(g.n, y)
    ensures var g', cell := Open(g, row, col), RowColToId(g.n, row, col);
      && (IsCell(g.n, y) && Adjacent(g.n, cell, y) && g.cellState[y] ==>
            Joined(g'.wqu, cell, y) && Joined(g'.wquConnected, cell, y))
      && (row == 1 ==> Joined(g'.wqu, cell, Top(g.n)) && Joined(g'.wquConnected, cell, Top(g.n)))
      && (row == g.n ==> Joined(g'.wquConnected, cell, Bottom(g.n)))
  {
    var g', n, cell := Open(g, row, col), g.n, RowColToId(g.n, row, col);
    if IsCell(n, y) && Adjacent(n, cell, y) && g.cellState[y] {
      ReachEdge(n, g'.cellState, false, cell, y);
      ReachEdge(n, g'.cellState, true, cell, y);
    }
    if row == 1 {
      ReachEdge(n, g'.cellState, false, cell, Top(n));
      ReachEdge(n, g'.cellState, true, cell, Top(n));
    }
    if row == n {
      ReachEdge(n, g'.cellState, true, cell, Bottom(n));
    }
  }

  /** Once the grid percolates, opening more cells keeps it percolating. */
  lemma OpenKeepsPercolating(g: Grid, row: int, col: int)
    requires Valid(g) && InGrid(g.n, row, col) && Percolating(g)
    ensures Percolating(Open(g, row, col))
  {
  }

  /** A cell is full when it is open and a path of open cells joins it to the top row. */
  ghost predicate Full(g: Grid, row: int, col: int)
    requires Shaped(g) && InGrid(g.n, row, col)
  {
    IsOpen(g, row, col) && Reach(g.n, g.cellState, false, RowColToId(g.n, row, col), Top(g.n))
  }

  /**
   `is_full`: open, and connected to `Top(n)` in the fullness structure.
   The query may halve paths in `wqu` but leaves its groups alone.
   */
  function IsFull(g: Grid, row: int, col: int): (r: (bool, Grid))
    requires Valid(g) && InGrid(g.n, row, col)
    ensures r.0 <==> Full(g, row, col)
    ensures Valid(r.1) && r.1.n == g.n && r.1.cellState == g.cellState
    ensures r.1.wquConnected == g.wquConnected && SamePartition(g.wqu, r.1.wqu)
  {
    if !IsOpen(g, row, col) then (false, g)
    else
      var (c, u) := Connected(g.wqu, RowColToId(g.n, row, col), Top(g.n));
      (c, g.(wqu := u))
  }

  /**
   No backwash: nothing is ever joined to `Bottom(n)` in the fullness
   structure, and whatever it joins the percolation structure joins too.
   */
  lemma NoBackwash(g: Grid, x: int)
    requires Valid(g) && IsNode(g.n, x)
    ensures Joined(g.wqu, Bottom(g.n), x) <==> x == Bottom(g.n)
    ensures Grows(g.wqu, g.wquConnected)
  {
    var n := g.n;
    if Joined(g.wqu, Bottom(n), x) {
      BottomIsolated(n, g.cellState, x);
    }
    forall y, z | IsNode(n, y) && IsNode(n, z) && Joined(g.wqu, y, z)
      ensures Joined(g.wquConnected, y, z)
    {
      ReachMono(n, g.cellState, false, g.cellState, true, y, z);
    }
  }

  /** `percolates`: `Bottom(n)` and `Top(n)` are connected in the percolation structure. */
  function Percolates(g: Grid): (r: (bool, Grid))
    requires Valid(g)
    ensures r.0 <==> Reach(g.n, g.cellState, true, Bottom(g.n), Top(g.n))
    ensures r.0 <==> Percolating(g)
    ensures Valid(r.1) && r.1.n == g.n && r.1.cellState == g.cellState
    ensures r.1.wqu == g.wqu && SamePartition(g.wquConnected, r.1.wquConnected)
  {
    var (c, u) := Connected(g.wquConnected, Bottom(g.n), Top(g.n));
    (c, g.(wquConnected := u))
  }

  /** The bottom links are the only links that differ between the two graphs. */
  lemma EdgeAwayFromBottom(n: int, open: seq<bool>, x: int, y: int)
    requires n > 0 && |open| == n * n && Edge(n, open, true, x, y)
    ensures x != Bottom(n) && y != Bottom(n) ==> Edge(n, open, false, x, y)
    ensures x == Bottom(n) ==> IsCell(n, y) && open[y] && Row(n, y) == n
  {
  }

  /** A path that never visits `Bottom(n)` uses no bottom link. */
  lemma PathAwayFromBottom(n: int, open: seq<bool>, t: seq<int>)
    requires n > 0 && |open| == n * n && IsPath(n, open, true, t)
    requires forall j :: 0 <= j < |t| ==> t[j] != Bottom(n)
    ensures IsPath(n, open, false, t)
  {
    forall j | 0 <= j < |t| - 1
      ensures Edge(n, open, false, t[j], t[j + 1])
    {
      EdgeAwayFromBottom(n, open, t[j], t[j + 1]);
    }
  }

  /**
   A path from `Bottom(n)` to `Top(n)` leaves `Bottom(n)` for the last time
   through an open bottom-row cell; the rest of the path never uses a bottom
   link, so that cell reaches `Top(n)` without one.
   */
  lemma BottomPathLeavesThroughCell(n: int, open: seq<bool>)
    requires n > 0 && |open| == n * n && Reach(n, open, true, Bottom(n), Top(n))
    ensures exists y :: IsCell(n, y) && open[y] && Row(n, y) == n && Reach(n, open, false, y, Top(n))
  {
    var s :| IsPath(n, open, true, s) && s[0] == Bottom(n) && s[|s| - 1] == Top(n);
    var i := |s| - 1;
    while s[i] != Bottom(n)
      invariant 0 <= i < |s|
      invariant forall j :: i < j < |s| ==> s[j] != Bottom(n)
      decreases i
    {
      i := i - 1;
    }
    var t := s[i + 1..];
    EdgeAwayFromBottom(n, open, s[i], s[i + 1]);
    PathAwayFromBottom(n, open, t);
    assert t[|t| - 1] == Top(n);
  }

  lemma BottomPathHasFullCell(g: Grid)
    requires Valid(g) && Reach(g.n, g.cellState, true, Bottom(g.n), Top(g.n))
    ensures exists c :: 1 <= c <= g.n && Full(g, g.n, c)
  {
    BottomPathLeavesThroughCell(g.n, g.cellState);
    var y :| IsCell(g.n, y) && g.cellState[y] && Row(g.n, y) == g.n && Reach(g.n, g.cellState, false, y, Top(g.n));
    IdOfRowCol(g.n, y);
    assert Full(g, g.n, Col(g.n, y));
  }

  /** The grid percolates exactly when some full cell sits on the bottom row. */
  lemma PercolatesIffFullBottomCell(g: Grid)
    requires Valid(g)
    ensures Percolating(g) <==> exists c :: 1 <= c <= g.n && Full(g, g.n, c)
  {
    var n := g.n;
    if Percolating(g) {
      BottomPathHasFullCell(g);
    }
    if c :| 1 <= c <= n && Full(g, n, c) {
      var cell := RowColToId(n, n, c);
      ReachMono(n, g.cellState, false, g.cellState, true, cell, Top(n));
      ReachEdge(n, g.cellState, true, Bottom(n), cell);
      ReachTrans(n, g.cellState, true, Bottom(n), cell, Top(n));
    }
  }

  /** `reset`: every cell closed and both structures back to singletons. */
  function Reset(g: Grid): (g': Grid)
    requires Valid(g)
    ensures New(g.n).Ok? && g' == New(g.n).value
    ensures NumberOfOpenSites(g') == 0
  {
    var n := g.n;
    var g' := Grid(n, seq(n * n, i => false), WeightedQuickUnion.Reset(g.wqu), WeightedQuickUnion.Reset(g.wquConnected));
    assert CountOpen(g'.cellState) == 0 by {
      CountOpenIsCardinality(g'.cellState);
      assert OpenIds(g'.cellState) == {};
    }
    g'
  }
}

=== FILE: percolation_examples.dfy ===
/**
 The usage examples of the percolation grid, replayed against the model.
 Each method performs the example's calls in order, threading the grid
 through every query (queries may halve paths), and returns the values
 the example prints.
 */
module PercolationExamples {
  import opened Lattice
  import opened OpenPaths
  import opened WeightedQuickUnion
  import opened Percolation

  /** `g` is a well-formed 3-by-3 grid whose cell states are `open`. */
  ghost predicate State(g: Grid, open: seq<bool>) {
    Percolation.Valid(g) && g.n == 3 && g.cellState == open
  }

  method Fresh3() returns (g: Grid)
    ensures State(g, Fresh())
  {
    g := Percolation.New(3).value;
    FreshGrid();
  }

  /** `p.open(row, col)` on a 3-by-3 grid. */
  method OpenAt(g: Grid, ghost open: seq<bool>, row: int, col: int) returns (g': Grid)
    requires State(g, open) && InGrid(3, row, col)
    ensures State(g', open[3 * row + col - 4 := true])
  {
    g' := Open(g, row, col);
  }

  /** `p.wqu.connected(x, y)`: asks the fullness structure directly. */
  method AskWqu(g: Grid, ghost open: seq<bool>, x: int, y: int) returns (b: bool, g': Grid)
    requires State(g, open) && IsNode(3, x) && IsNode(3, y)
    ensures b <==> Reach(3, open, false, x, y)
    ensures State(g', open)
  {
    var r := Connected(g.wqu, x, y);
    b, g' := r.0, g.(wqu := r.1);
  }

  /** `p.wqu_connected.connected(x, y)`: asks the percolation structure directly. */
  method AskWquConnected(g: Grid, ghost open: seq<bool>, x: int, y: int) returns (b: bool, g': Grid)
    requires State(g, open) && IsNode(3, x) && IsNode(3, y)
    ensures b <==> Reach(3, open, true, x, y)
    ensures State(g', open)
  {
    var r := Connected(g.wquConnected, x, y);
    b, g' := r.0, g.(wquConnected := r.1);
  }

  /** `p.is_full(row, col)` on a 3-by-3 grid. */
  method IsFullAt(g: Grid, ghost open: seq<bool>, row: int, col: int) returns (b: bool, g': Grid)
    requires State(g, open) && InGrid(3, row, col)
    ensures b <==> open[3 * row + col - 4] && Reach(3, open, false, 3 * row + col - 4, 10)
    ensures State(g', open)
  {
    var r := IsFull(g, row, col);
    b, g' := r.0, r.1;
  }

  /** `p.percolates()` on a 3-by-3 grid. */
  method PercolatesAt(g: Grid, ghost open: seq<bool>) returns (b: bool, g': Grid)
    requires State(g, open)
    ensures b <==> Reach(3, open, true, 9, 10)
    ensures State(g', open)
  {
    var r := Percolates(g);
    b, g' := r.0, r.1;
  }

  /** The cell states of a fresh 3-by-3 grid. */
  function Fresh(): seq<bool> {
    seq(9, i => false)
  }

  lemma FreshGrid()
    ensures Percolation.New(3).Ok? && Percolation.New(3).value.cellState == Fresh()
  {
  }

  /** After opening the lower-left cell 6: only the percolation structure reaches the bottom. */
  lemma OpenGraph1(open: seq<bool>)
    requires open == Fresh()[6 := true]
    ensures !Reach(3, open, false, 6, 9) && Reach(3, open, true, 6, 9) && !Reach(3, open, false, 6, 7)
  {
    BottomIsolatedFrom(3, open, 6);
    ReachEdge(3, open, true, 6, 9);
    forall a, b | a in {6} && IsNode(3, b) && Edge(3, open, false, a, b)
      ensures b in {6}
    {
      NodeEdges(3, open, false, a, b);
    }
    if Reach(3, open, false, 6, 7) {
      ClosedSetTraps(3, open, false, {6}, 6, 7);
    }
  }

  /** After opening the top-middle cell 1 as well. */
  lemma OpenGraph2(open: seq<bool>)
    requires open == Fresh()[6 := true][1 := true]
    ensures Reach(3, open, false, 1, 10) && !Reach(3, open, false, 1, 4)
  {
    ReachEdge(3, open, false, 1, 10);
    forall a, b | a in {1, 10} && IsNode(3, b) && Edge(3, open, false, a, b)
      ensures b in {1, 10}
    {
      NodeEdges(3, open, false, a, b);
    }
    if Reach(3, open, false, 1, 4) {
      ClosedSetTraps(3, open, false, {1, 10}, 1, 4);
    }
  }

  lemma OpenGraph3(open: seq<bool>)
    requires open == Fresh()[6 := true][1 := true][7 := true]
    ensures Reach(3, open, false, 6, 7)
  {
    ReachEdge(3, open, false, 6, 7);
  }

  lemma OpenGraph4(open: seq<bool>)
    requires open == Fresh()[6 := true][1 := true][7 := true][4 := true]
    ensures Reach(3, open, false, 4, 6) && Reach(3, open, true, 9, 10)
  {
    ReachEdge(3, open, false, 4, 7);
    ReachEdge(3, open, false, 7, 6);
    ReachTrans(3, open, false, 4, 7, 6);
    ReachEdge(3, open, true, 9, 6);
    ReachEdge(3, open, true, 6, 7);
    ReachEdge(3, open, true, 7, 4);
    ReachEdge(3, open, true, 4, 1);
    ReachEdge(3, open, true, 1, 10);
    ReachTrans(3, open, true, 9, 6, 7);
    ReachTrans(3, open, true, 9, 7, 4);
    ReachTrans(3, open, true, 9, 4, 1);
    ReachTrans(3, open, true, 9, 1, 10);
  }

  /** `_row_col_to_id` on a 2-by-2 grid enumerates the cells row by row. */
  lemma RowColToIdExample()
    ensures RowColToId(2, 1, 1) == 0 && RowColToId(2, 1, 2) == 1
    ensures RowColToId(2, 2, 1) == 2 && RowColToId(2, 2, 2) == 3
  {
  }

  /** The `open` example on a 3-by-3 grid (cells 0..8, bottom 9, top 10). */
  method OpenExample() returns (answers: seq<bool>)
    ensures answers == [false, true, false, true, false, true, true, true]
  {
    var a0, a1, a2, a3, a4, a5, a6, a7;
    var g := Fresh3();
    ghost var open := Fresh()[6 := true];
    g := OpenAt(g, Fresh(), 3, 1);
    OpenGraph1(open);
    a0, g := AskWqu(g, open, 6, 9);
    a1, g := AskWquConnected(g, open, 6, 9);
    a2, g := AskWqu(g, open, 6, 7);
    g := OpenAt(g, open, 1, 2);
    open := open[1 := true];
    OpenGraph2(open);
    a3, g := AskWqu(g, open, 1, 10);
    a4, g := AskWqu(g, open, 1, 4);
    g := OpenAt(g, open, 3, 2);
    open := open[7 := true];
    OpenGraph3(open);
    a5, g := AskWqu(g, open, 6, 7);
    g := OpenAt(g, open, 2, 2);
    open := open[4 := true];
    OpenGraph4(open);
    a6, g := AskWqu(g, open, 4, 6);
    a7, g := PercolatesAt(g, open);
    answers := [a0, a1, a2, a3, a4, a5, a6, a7];
  }

  lemma BottomIsolatedFrom(n: int, open: seq<bool>, x: int)
    requires n > 0 && |open| == n * n && x != Bottom(n)
    ensures !Reach(n, open, false, x, Bottom(n))
  {
    if Reach(n, open, false, x, Bottom(n)) {
      ReachSym(n, open, false, x, Bottom(n));
      BottomIsolated(n, open, x);
    }
  }

  lemma IsFullGraph1(open: seq<bool>)
    requires open == Fresh()[0 := true]
    ensures Reach(3, open, false, 0, 10)
  {
    ReachEdge(3, open, false, 0, 10);
  }

  lemma IsFullGraph2(open: seq<bool>)
    requires open == Fresh()[0 := true][6 := true]
    ensures !Reach(3, open, false, 6, 10)
  {
    forall a, b | a in {6} && IsNode(3, b) && Edge(3, open, false, a, b)
      ensures b in {6}
    {
      NodeEdges(3, open, false, a, b);
    }
    if Reach(3, open, false, 6, 10) {
      ClosedSetTraps(3, open, false, {6}, 6, 10);
    }
  }

  lemma IsFullGraph3(open: seq<bool>)
    requires open == Fresh()[0 := true][6 := true][3 := true]
    ensures Reach(3, open, false, 6, 10)
  {
    ReachEdge(3, open, false, 6, 3);
    ReachEdge(3, open, false, 3, 0);
    ReachEdge(3, open, false, 0, 10);
    ReachTrans(3, open, false, 6, 3, 0);
    ReachTrans(3, open, false, 6, 0, 10);
  }

  /** Cell 8 percolates through the bottom links only; without them it is alone. */
  lemma IsFullGraph4(open: seq<bool>)
    requires open == Fresh()[0 := true][6 := true][3 := true][8 := true]
    ensures !Reach(3, open, false, 8, 10) && Reach(3, open, true, 8, 10)
  {
    forall a, b | a in {8} && IsNode(3, b) && Edge(3, open, false, a, b)
      ensures b in {8}
    {
      NodeEdges(3, open, false, a, b);
    }
    if Reach(3, open, false, 8, 10) {
      ClosedSetTraps(3, open, false, {8}, 8, 10);
    }
    ReachEdge(3, open, true, 8, 9);
    ReachEdge(3, open, true, 9, 6);
    ReachTrans(3, open, true, 8, 9, 6);
    IsFullGraph3(open[8 := false]);
    ReachMono(3, open[8 := false], false, open, true, 6, 10);
    ReachTrans(3, open, true, 8, 6, 10);
  }

  /** A cell of a fresh 2-by-2 grid is closed, so it is not full. */
  method IsFullClosed() returns (full: bool)
    ensures !full
  {
    var g := Percolation.New(2).value;
    var r := IsFull(g, 2, 1);
    full := r.0;
  }

  /** The `is_full` example; the last answer is the one backwash would get wrong. */
  method IsFullExample() returns (answers: seq<bool>)
    ensures answers == [false, true, false, true, false]
  {
    var a0 := IsFullClosed();
    var first, g := IsFullTopAndBottom();
    var rest := IsFullThroughColumn(g);
    answers := [a0] + first + rest;
  }

  /** The first two queries: the opened top-left cell is full, the opened bottom-left one is not. */
  method IsFullTopAndBottom() returns (answers: seq<bool>, g: Grid)
    ensures answers == [true, false] && State(g, Fresh()[0 := true][6 := true])
  {
    var a1, a2;
    g := Fresh3();
    ghost var open := Fresh()[0 := true];
    g := OpenAt(g, Fresh(), 1, 1);
    IsFullGraph1(open);
    a1, g := IsFullAt(g, open, 1, 1);
    g := OpenAt(g, open, 3, 1);
    open := open[6 := true];
    IsFullGraph2(open);
    a2, g := IsFullAt(g, open, 3, 1);
    answers := [a1, a2];
  }

  /** The last two: the first column fills cell 6, but cell 8 is not full despite percolating. */
  method IsFullThroughColumn(g: Grid) returns (answers: seq<bool>)
    requires State(g, Fresh()[0 := true][6 := true])
    ensures answers == [true, false]
  {
    var a3, a4;
    var g' := OpenAt(g, Fresh()[0 := true][6 := true], 2, 1);
    ghost var open := Fresh()[0 := true][6 := true][3 := true];
    IsFullGraph3(open);
    a3, g' := IsFullAt(g', open, 3, 1);
    g' := OpenAt(g', open, 3, 3);
    open := open[8 := true];
    IsFullGraph4(open);
    a4, g' := IsFullAt(g', open, 3, 3);
    answers := [a3, a4];
  }

  /** The `number_of_open_sites` example. */
  method NumberOfOpenSitesExample() returns (count: nat)
    ensures count == 2
  {
    var g := Percolation.New(2).value;
    ClosedCount(g);
    OpenCounts(g, 1, 1);
    g := Open(g, 1, 1);
    OpenCounts(g, 2, 2);
    g := Open(g, 2, 2);
    count := NumberOfOpenSites(g);
  }

  lemma ClosedCount(g: Grid)
    requires Percolation.Valid(g) && forall i :: 0 <= i < g.n * g.n ==> !g.cellState[i]
    ensures NumberOfOpenSites(g) == 0
  {
    CountOpenIsCardinality(g.cellState);
    assert OpenIds(g.cellState) == {};
  }

  lemma PercolatesGraph1(open: seq<bool>)
    requires open == Fresh()[0 := true][4 := true][8 := true] || open == Fresh()[0 := true][4 := true][8 := true][1 := true]
    ensures !Reach(3, open, true, 9, 10)
  {
    forall a, b | a in {10, 0, 1, 4} && IsNode(3, b) && Edge(3, open, true, a, b)
      ensures b in {10, 0, 1, 4}
    {
      NodeEdges(3, open, true, a, b);
    }
    if Reach(3, open, true, 9, 10) {
      ReachSym(3, open, true, 9, 10);
      ClosedSetTraps(3, open, true, {10, 0, 1, 4}, 10, 9);
    }
  }

  lemma PercolatesGraph2(open: seq<bool>)
    requires open == Fresh()[0 := true][4 := true][8 := true][1 := true][5 := true]
    ensures Reach(3, open, true, 9, 10)
  {
    ReachEdge(3, open, true, 9, 8);
    ReachEdge(3, open, true, 8, 5);
    ReachEdge(3, open, true, 5, 4);
    ReachEdge(3, open, true, 4, 1);
    ReachEdge(3, open, true, 1, 10);
    ReachTrans(3, open, true, 9, 8, 5);
    ReachTrans(3, open, true, 9, 5, 4);
    ReachTrans(3, open, true, 9, 4, 1);
    ReachTrans(3, open, true, 9, 1, 10);
  }

  /** The `percolates` example: a diagonal does not percolate until the gaps are filled. */
  method PercolatesExample() returns (answers: seq<bool>)
    ensures answers == [false, false, true]
  {
    var a0, a1, a2;
    var g := Fresh3();
    g := OpenAt(g, Fresh(), 1, 1);
    g := OpenAt(g, Fresh()[0 := true], 2, 2);
    g := OpenAt(g, Fresh()[0 := true][4 := true], 3, 3);
    ghost var open := Fresh()[0 := true][4 := true][8 := true];
    PercolatesGraph1(open);
    a0, g := PercolatesAt(g, open);
    g := OpenAt(g, open, 1, 2);
    open := open[1 := true];
    PercolatesGraph1(open);
    a1, g := PercolatesAt(g, open);
    g := OpenAt(g, open, 2, 3);
    open := open[5 := true];
    PercolatesGraph2(open);
    a2, g := PercolatesAt(g, open);
    answers := [a0, a1, a2];
  }
}

=== FILE: weighted_quick_union.dfy ===
/**
 Weighted quick-union with path halving over the fixed universe 0..n-1.

 The structure is a parent array `id` (an element is a root when it is its
 own parent) and a weight array `sz` that is only used to decide which root
 is hung under which in `Union`. The weight is a balancing heuristic: `Union`
 of two elements that already share a root still adds the weight to itself,
 so `sz` is NOT the size of a component and nothing here claims it is.

 Termination of the root walk rests on a ghost rank that strictly increases
 along every parent edge. The rank is never stored: it is an existential
 witness of `Valid`, and the walk receives it as a ghost argument.
 */
module WeightedQuickUnion {

  datatype Wqu = Wqu(id: seq<int>, sz: seq<int>)

  /** Number of elements in the universe. */
  function Size(u: Wqu): nat {
    |u.id|
  }

  predicate InRange(u: Wqu, i: int) {
    0 <= i < |u.id|
  }

  /** `rank` certifies that every parent walk in `u` ends at a root. */
  ghost predicate Ranked(u: Wqu, rank: seq<nat>) {
    && |u.sz| == |u.id|
    && |rank| == |u.id|
    && (forall k :: 0 <= k < |u.id| ==> 0 <= u.id[k] < |u.id|)
    && (forall k :: 0 <= k < |u.id| && u.id[k] != k ==> rank[k] < rank[u.id[k]])
  }

  ghost predicate Valid(u: Wqu) {
    exists rank :: Ranked(u, rank)
  }

  /** An upper bound of all ranks, used as the ceiling of the termination measure. */
  ghost function Ceiling(rank: seq<nat>): (m: nat)
    ensures forall k :: 0 <= k < |rank| ==> rank[k] <= m
  {
    if |rank| == 0 then 0
    else
      var m := Ceiling(rank[..|rank| - 1]);
      assert forall k :: 0 <= k < |rank| - 1 ==> rank[..|rank| - 1][k] == rank[k];
      if rank[|rank| - 1] > m then rank[|rank| - 1] else m
  }

  /** The root reached by following parent links, without changing anything. */
  ghost function RootWith(u: Wqu, rank: seq<nat>, i: int): (r: int)
    requires Ranked(u, rank) && InRange(u, i)
    ensures InRange(u, r) && u.id[r] == r
    decreases Ceiling(rank) - rank[i]
  {
    if u.id[i] == i then i else RootWith(u, rank, u.id[i])
  }

  lemma {:induction false} RootWithIndependent(u: Wqu, r1: seq<nat>, r2: seq<nat>, i: int)
    requires Ranked(u, r1) && Ranked(u, r2) && InRange(u, i)
    ensures RootWith(u, r1, i) == RootWith(u, r2, i)
    decreases Ceiling(r1) - r1[i]
  {
    if u.id[i] != i {
      RootWithIndependent(u, r1, r2, u.id[i]);
    }
  }

  /** The representative of `i`: the reference definition of what `Root` returns. */
  ghost function Rep(u: Wqu, i: int): (r: int)
    requires Valid(u) && InRange(u, i)
    ensures InRange(u, r) && u.id[r] == r
  {
    var rank :| Ranked(u, rank);
    RootWith(u, rank, i)
  }

  lemma RepIsRootWith(u: Wqu, rank: seq<nat>, i: int)
    requires Ranked(u, rank) && InRange(u, i)
    ensures Rep(u, i) == RootWith(u, rank, i)
  {
    forall r2 | Ranked(u, r2)
      ensures RootWith(u, r2, i) == RootWith(u, rank, i)
    {
      RootWithIndependent(u, r2, rank, i);
    }
  }

  lemma RepsAreRootWith(u: Wqu, rank: seq<nat>)
    requires Ranked(u, rank)
    ensures forall k :: InRange(u, k) ==> Rep(u, k) == RootWith(u, rank, k)
  {
    forall k | InRange(u, k)
      ensures Rep(u, k) == RootWith(u, rank, k)
    {
      RepIsRootWith(u, rank, k);
    }
  }

  /** `p` and `q` are in the same group. */
  ghost predicate Joined(u: Wqu, p: int, q: int)
    requires Valid(u) && InRange(u, p) && InRange(u, q)
  {
    Rep(u, p) == Rep(u, q)
  }

  /** `u2` answers every `connected` query exactly as `u1` does. */
  ghost predicate SamePartition(u1: Wqu, u2: Wqu)
    requires Valid(u1) && Valid(u2) && Size(u1) == Size(u2)
  {
    forall k :: InRange(u1, k) ==> Rep(u2, k) == Rep(u1, k)
  }

  /** Every pair joined in `u1` is joined in `u2`. */
  ghost predicate Grows(u1: Wqu, u2: Wqu)
    requires Valid(u1) && Valid(u2) && Size(u1) == Size(u2)
  {
    forall x, y :: InRange(u1, x) && InRange(u1, y) && Joined(u1, x, y) ==> Joined(u2, x, y)
  }

  /** The groups of `u2` are those of `u1` with the groups of `p` and `q` merged. */
  ghost predicate Merged(u1: Wqu, u2: Wqu, p: int, q: int)
    requires Valid(u1) && Valid(u2) && Size(u1) == Size(u2)
    requires InRange(u1, p) && InRange(u1, q)
  {
    forall x, y :: InRange(u1, x) && InRange(u1, y) ==>
      (Joined(u2, x, y) <==>
        || Joined(u1, x, y)
        || (Joined(u1, x, p) && Joined(u1, y, q))
        || (Joined(u1, x, q) && Joined(u1, y, p)))
  }

  lemma SamePartitionMerges(u1: Wqu, u2: Wqu, p: int, q: int)
    requires Valid(u1) && Valid(u2) && Size(u1) == Size(u2)
    requires InRange(u1, p) && InRange(u1, q) && Joined(u1, p, q)
    requires SamePartition(u1, u2)
    ensures Merged(u1, u2, p, q)
  {
  }

  lemma MergedGrows(u1: Wqu, u2: Wqu, p: int, q: int)
    requires Valid(u1) && Valid(u2) && Size(u1) == Size(u2)
    requires InRange(u1, p) && InRange(u1, q)
    requires Merged(u1, u2, p, q)
    ensures Grows(u1, u2) && Joined(u2, p, q)
  {
  }

  /** One step of the walk: point `i` at its grandparent. */
  function Halve(u: Wqu, i: int): Wqu
    requires InRange(u, i) && InRange(u, u.id[i])
  {
    u.(id := u.id[i := u.id[u.id[i]]])
  }

  /** Halving keeps the same rank certificate and the root of every element. */
  lemma {:induction false} HalveKeepsRoots(u: Wqu, rank: seq<nat>, i: int)
    requires Ranked(u, rank) && InRange(u, i)
    ensures Ranked(Halve(u, i), rank)
    ensures forall k :: InRange(u, k) ==> RootWith(Halve(u, i), rank, k) == RootWith(u, rank, k)
  {
    var h := Halve(u, i);
    assert Ranked(h, rank) by {
      forall k | InRange(u, k) && h.id[k] != k
        ensures rank[k] < rank[h.id[k]]
      {
        if k == i {
          var g := u.id[i];
          assert u.id[g] == g || rank[g] < rank[u.id[g]];
        }
      }
    }
    forall k | InRange(u, k)
      ensures RootWith(h, rank, k) == RootWith(u, rank, k)
    {
      HalveKeepsRoot(u, rank, i, k);
    }
  }

  lemma {:induction false} HalveKeepsRoot(u: Wqu, rank: seq<nat>, i: int, k: int)
    requires Ranked(u, rank) && InRange(u, i) && InRange(u, k)
    requires Ranked(Halve(u, i), rank)
    ensures RootWith(Halve(u, i), rank, k) == RootWith(u, rank, k)
    decreases Ceiling(rank) - rank[k]
  {
    var h := Halve(u, i);
    if u.id[k] == k {
      assert h.id[k] == k;
    } else if k == i {
      var g := u.id[i];
      var gg := u.id[g];
      HalveKeepsRoot(u, rank, i, gg);
      if g != gg {
        assert RootWith(u, rank, g) == RootWith(u, rank, gg);
      }
    } else {
      HalveKeepsRoot(u, rank, i, u.id[k]);
    }
  }

  /** The `while` loop of `root`: halve the path from `i` while walking up. */
  function Walk(u: Wqu, i: int, ghost rank: seq<nat>): (res: (int, Wqu))
    requires Ranked(u, rank) && InRange(u, i)
    ensures Ranked(res.1, rank) && res.1.sz == u.sz
    ensures res.0 == RootWith(u, rank, i)
    ensures forall k :: InRange(u, k) ==> RootWith(res.1, rank, k) == RootWith(u, rank, k)
    decreases Ceiling(rank) - rank[i]
  {
    if i == u.id[i] then (i, u)
    else
      var h := Halve(u, i);
      HalveKeepsRoots(u, rank, i);
      Walk(h, h.id[i], rank)
  }

  /**
   Returns the root of `i` and the structure after path halving. The root is
   the representative of `i` before and after, and no element's representative
   changes: a root call never changes the answer of a later `connected`.
   */
  function Root(u: Wqu, i: int): (res: (int, Wqu))
    requires Valid(u) && InRange(u, i)
    ensures Valid(res.1) && Size(res.1) == Size(u) && res.1.sz == u.sz
    ensures InRange(u, res.0) && u.id[res.0] == res.0 && res.1.id[res.0] == res.0
    ensures res.0 == Rep(u, i)
    ensures SamePartition(u, res.1)
  {
    ghost var rank :| Ranked(u, rank);
    var res := Walk(u, i, rank);
    RepsAreRootWith(u, rank);
    RepsAreRootWith(res.1, rank);
    res
  }

  /** `connected`: both roots are computed (each compressing), then compared. */
  function Connected(u: Wqu, p: int, q: int): (res: (bool, Wqu))
    requires Valid(u) && InRange(u, p) && InRange(u, q)
    ensures Valid(res.1) && Size(res.1) == Size(u) && res.1.sz == u.sz
    ensures res.0 <==> Joined(u, p, q)
    ensures SamePartition(u, res.1)
  {
    var (i, u1) := Root(u, p);
    var (j, u2) := Root(u1, q);
    (i == j, u2)
  }

  /** Changing only weights changes no representative. */
  lemma ReweighKeepsRoots(u: Wqu, v: Wqu)
    requires Valid(u) && v.id == u.id && |v.sz| == |u.sz|
    ensures Valid(v) && SamePartition(u, v)
  {
    var rank :| Ranked(u, rank);
    assert Ranked(v, rank);
    RepsAreRootWith(u, rank);
    RepsAreRootWith(v, rank);
    forall k | InRange(u, k)
      ensures RootWith(v, rank, k) == RootWith(u, rank, k)
    {
      ReweighKeepsRoot(u, v, rank, k);
    }
  }

  lemma {:induction false} ReweighKeepsRoot(u: Wqu, v: Wqu, rank: seq<nat>, k: int)
    requires Ranked(u, rank) && Ranked(v, rank) && v.id == u.id && InRange(u, k)
    ensures RootWith(v, rank, k) == RootWith(u, rank, k)
    decreases Ceiling(rank) - rank[k]
  {
    if u.id[k] != k {
      ReweighKeepsRoot(u, v, rank, u.id[k]);
    }
  }

  /** Hang root `a` under root `b`, with `b` taking the combined weight. */
  function Attach(u: Wqu, a: int, b: int): Wqu
    requires InRange(u, a) && InRange(u, b) && |u.sz| == |u.id|
  {
    Wqu(u.id[a := b], u.sz[b := u.sz[b] + u.sz[a]])
  }

  lemma LinkKeepsRanked(u: Wqu, rank: seq<nat>, a: int, b: int)
    requires Ranked(u, rank) && InRange(u, a) && InRange(u, b)
    requires u.id[a] == a && u.id[b] == b && a != b
    ensures Ranked(Attach(u, a, b), rank[b := if rank[b] > rank[a] then rank[b] else rank[a] + 1])
  {
  }

  lemma {:induction false} LinkRoot(u: Wqu, rank: seq<nat>, a: int, b: int, k: int)
    requires Ranked(u, rank) && InRange(u, a) && InRange(u, b) && InRange(u, k)
    requires u.id[a] == a && u.id[b] == b && a != b
    requires Ranked(Attach(u, a, b), rank[b := if rank[b] > rank[a] then rank[b] else rank[a] + 1])
    ensures var r := RootWith(u, rank, k);
            var nr := rank[b := if rank[b] > rank[a] then rank[b] else rank[a] + 1];
            RootWith(Attach(u, a, b), nr, k) == if r == a then b else r
    decreases Ceiling(rank[b := if rank[b] > rank[a] then rank[b] else rank[a] + 1])
              - rank[b := if rank[b] > rank[a] then rank[b] else rank[a] + 1][k]
  {
    var l := Attach(u, a, b);
    var nr := rank[b := if rank[b] > rank[a] then rank[b] else rank[a] + 1];
    if k == a {
      assert RootWith(l, nr, b) == b;
    } else if u.id[k] != k {
      LinkRoot(u, rank, a, b, u.id[k]);
    }
  }

  /** Linking two distinct roots merges exactly their two groups. */
  lemma LinkMerges(u: Wqu, a: int, b: int, p: int, q: int)
    requires Valid(u) && InRange(u, p) && InRange(u, q)
    requires a == Rep(u, p) && b == Rep(u, q) && a != b
    ensures Valid(Attach(u, a, b)) && Size(Attach(u, a, b)) == Size(u)
    ensures Merged(u, Attach(u, a, b), p, q)
    ensures forall k :: InRange(u, k) ==> Rep(Attach(u, a, b), k) == if Rep(u, k) == a then b else Rep(u, k)
  {
    var rank :| Ranked(u, rank);
    var nr := rank[b := if rank[b] > rank[a] then rank[b] else rank[a] + 1];
    var l := Attach(u, a, b);
    LinkKeepsRanked(u, rank, a, b);
    RepsAreRootWith(u, rank);
    RepsAreRootWith(l, nr);
    forall k | InRange(u, k)
      ensures Rep(l, k) == if Rep(u, k) == a then b else Rep(u, k)
    {
      LinkRoot(u, rank, a, b, k);
    }
  }

  /** The tail of `union` once both roots are known: weigh them and link. */
  function LinkByWeight(u: Wqu, p: int, q: int, i: int, j: int): (u': Wqu)
    requires Valid(u) && InRange(u, p) && InRange(u, q)
    requires i == Rep(u, p) && j == Rep(u, q)
    ensures Valid(u') && Size(u') == Size(u)
    ensures Merged(u, u', p, q)
    ensures var w := if u.sz[i] < u.sz[j] then j else i;
      && Rep(u', p) == w
      && u'.sz[w] == u.sz[i] + u.sz[j]
      && (forall k :: InRange(u, k) && k != w ==> u'.sz[k] == u.sz[k])
  {
    if u.sz[i] < u.sz[j] then
      LinkMerges(u, i, j, p, q);
      Attach(u, i, j)
    else if i == j then
      var u' := Wqu(u.id[j := i], u.sz[i := u.sz[i] + u.sz[j]]);
      assert u'.id == u.id;
      ReweighKeepsRoots(u, u');
      SamePartitionMerges(u, u', p, q);
      u'
    else
      LinkMerges(u, j, i, q, p);
      Attach(u, j, i)
  }

  lemma MergedTransfer(u: Wqu, v: Wqu, w: Wqu, p: int, q: int)
    requires Valid(u) && Valid(v) && Valid(w) && Size(u) == Size(v) == Size(w)
    requires InRange(u, p) && InRange(u, q)
    requires SamePartition(u, v) && Merged(v, w, p, q)
    ensures Merged(u, w, p, q)
  {
  }

  /**
   `union`: equal arguments change nothing; otherwise the root with the
   smaller weight is hung under the other, ties going to the root of `q`
   being hung under the root of `p`. Roots that already coincide take the
   else branch, which leaves the parents alone and doubles the weight.
   */
  function Union(u: Wqu, p: int, q: int): (u': Wqu)
    requires Valid(u) && InRange(u, p) && InRange(u, q)
    ensures Valid(u') && Size(u') == Size(u)
    ensures p == q ==> u' == u
    ensures Merged(u, u', p, q)
    ensures Joined(u', p, q)
    ensures p != q ==>
      var a, b := Rep(u, p), Rep(u, q);
      var w := if u.sz[a] < u.sz[b] then b else a;
      && Rep(u', p) == w
      && u'.sz[w] == u.sz[a] + u.sz[b]
      && (forall k :: InRange(u, k) && k != w ==> u'.sz[k] == u.sz[k])
  {
    if p == q then u
    else
      var (i, u1) := Root(u, p);
      var (j, u2) := Root(u1, q);
      var u' := LinkByWeight(u2, p, q, i, j);
      MergedTransfer(u, u2, u', p, q);
      MergedGrows(u, u', p, q);
      u'
  }

  /** A fresh structure of `n` singletons (constructor and `reset`). */
  function New(n: nat): (u: Wqu)
    ensures Valid(u) && Size(u) == n
    ensures forall k :: 0 <= k < n ==> u.id[k] == k && Rep(u, k) == k && u.sz[k] == 1
    ensures forall p, q :: 0 <= p < n && 0 <= q < n ==> (Joined(u, p, q) <==> p == q)
  {
    var u := Wqu(seq(n, k => k), seq(n, k => 1));
    assert Ranked(u, seq(n, k => 0));
    u
  }

  /** `reset`: back to singletons with weight 1, over the same universe. */
  function Reset(u: Wqu): (u': Wqu)
    ensures Valid(u') && Size(u') == Size(u)
    ensures forall k :: InRange(u, k) ==> u'.id[k] == k && Rep(u', k) == k && u'.sz[k] == 1
    ensures forall p, q :: InRange(u, p) && InRange(u, q) ==> (Joined(u', p, q) <==> p == q)
  {
    New(Size(u))
  }

  /** `connected` is an equivalence relation on the universe. */
  lemma JoinedIsEquivalence(u: Wqu, x: int, y: int, z: int)
    requires Valid(u) && InRange(u, x) && InRange(u, y) && InRange(u, z)
    ensures Joined(u, x, x)
    ensures Joined(u, x, y) ==> Joined(u, y, x)
    ensures Joined(u, x, y) && Joined(u, y, z) ==> Joined(u, x, z)
  {
  }
}

=== FILE: weighted_quick_union_examples.dfy ===
/**
 The usage example of the union-find structure, replayed against the model:
 ten singletons, nine unions, a query, a reset. `StateK` is the structure
 after the K-th union; `Halved1` is the one path halving the example's last
 union performs before linking. Each step lemma walks the same halving
 steps the source takes, which is what pins down the exact parent arrays.
 */
module WeightedQuickUnionExamples {
  import opened WeightedQuickUnion

  function State0(): Wqu {
    Wqu([0, 1, 2, 3, 4, 5, 6, 7, 8, 9], [1, 1, 1, 1, 1, 1, 1, 1, 1, 1])
  }

  function State1(): Wqu {
    Wqu([0, 1, 2, 4, 4, 5, 6, 7, 8, 9], [1, 1, 1, 1, 2, 1, 1, 1, 1, 1])
  }

  function State2(): Wqu {
    Wqu([0, 1, 2, 4, 4, 5, 6, 7, 4, 9], [1, 1, 1, 1, 3, 1, 1, 1, 1, 1])
  }

  function State3(): Wqu {
    Wqu([0, 1, 2, 4, 4, 6, 6, 7, 4, 9], [1, 1, 1, 1, 3, 1, 2, 1, 1, 1])
  }

  function State4(): Wqu {
    Wqu([0, 1, 2, 4, 4, 6, 6, 7, 4, 4], [1, 1, 1, 1, 4, 1, 2, 1, 1, 1])
  }

  function State5(): Wqu {
    Wqu([0, 2, 2, 4, 4, 6, 6, 7, 4, 4], [1, 1, 2, 1, 4, 1, 2, 1, 1, 1])
  }

  function State6(): Wqu {
    Wqu([6, 2, 2, 4, 4, 6, 6, 7, 4, 4], [1, 1, 2, 1, 4, 1, 3, 1, 1, 1])
  }

  function State7(): Wqu {
    Wqu([6, 2, 2, 4, 4, 6, 6, 2, 4, 4], [1, 1, 3, 1, 4, 1, 3, 1, 1, 1])
  }

  function State8(): Wqu {
    Wqu([6, 2, 6, 4, 4, 6, 6, 2, 4, 4], [1, 1, 3, 1, 4, 1, 6, 1, 1, 1])
  }

  function State9(): Wqu {
    Wqu([6, 2, 6, 4, 6, 6, 6, 6, 4, 4], [1, 1, 3, 1, 4, 1, 10, 1, 1, 1])
  }

  function Halved1(): Wqu {
    Wqu([6, 2, 6, 4, 4, 6, 6, 6, 4, 4], [1, 1, 3, 1, 4, 1, 6, 1, 1, 1])
  }

  /** `union(4, 3)` */
  lemma UnionStep1()
    requires Valid(State0())
    ensures Union(State0(), 4, 3) == State1() && Valid(State1())
  {
    assert Root(State0(), 4) == (4, State0());
    assert Root(State0(), 3) == (3, State0());
    assert Attach(State0(), 3, 4) == State1();
  }

  lemma RootStep2P()
    requires Valid(State1())
    ensures Root(State1(), 3) == (4, State1())
  {
    forall rank | Ranked(State1(), rank)
      ensures Walk(State1(), 3, rank) == (4, State1())
    {
      HalveKeepsRoots(State1(), rank, 3);
      assert Halve(State1(), 3) == State1();
      assert Walk(State1(), 3, rank) == Walk(State1(), 4, rank);
    }
  }

  /** `union(3, 8)` */
  lemma UnionStep2()
    requires Valid(State1())
    ensures Union(State1(), 3, 8) == State2() && Valid(State2())
  {
    RootStep2P();
    assert Root(State1(), 8) == (8, State1());
    assert Attach(State1(), 8, 4) == State2();
  }

  /** `union(6, 5)` */
  lemma UnionStep3()
    requires Valid(State2())
    ensures Union(State2(), 6, 5) == State3() && Valid(State3())
  {
    assert Root(State2(), 6) == (6, State2());
    assert Root(State2(), 5) == (5, State2());
    assert Attach(State2(), 5, 6) == State3();
  }

  /** `union(9, 4)` */
  lemma UnionStep4()
    requires Valid(State3())
    ensures Union(State3(), 9, 4) == State4() && Valid(State4())
  {
    assert Root(State3(), 9) == (9, State3());
    assert Root(State3(), 4) == (4, State3());
    assert Attach(State3(), 9, 4) == State4();
  }

  /** `union(2, 1)` */
  lemma UnionStep5()
    requires Valid(State4())
    ensures Union(State4(), 2, 1) == State5() && Valid(State5())
  {
    assert Root(State4(), 2) == (2, State4());
    assert Root(State4(), 1) == (1, State4());
    assert Attach(State4(), 1, 2) == State5();
  }

  lemma RootStep6P()
    requires Valid(State5())
    ensures Root(State5(), 5) == (6, State5())
  {
    forall rank | Ranked(State5(), rank)
      ensures Walk(State5(), 5, rank) == (6, State5())
    {
      HalveKeepsRoots(State5(), rank, 5);
      assert Halve(State5(), 5) == State5();
      assert Walk(State5(), 5, rank) == Walk(State5(), 6, rank);
    }
  }

  /** `union(5, 0)` */
  lemma UnionStep6()
    requires Valid(State5())
    ensures Union(State5(), 5, 0) == State6() && Valid(State6())
  {
    RootStep6P();
    assert Root(State5(), 0) == (0, State5());
    assert Attach(State5(), 0, 6) == State6();
  }

  /** `union(7, 2)` */
  lemma UnionStep7()
    requires Valid(State6())
    ensures Union(State6(), 7, 2) == State7() && Valid(State7())
  {
    assert Root(State6(), 7) == (7, State6());
    assert Root(State6(), 2) == (2, State6());
    assert Attach(State6(), 7, 2) == State7();
  }

  lemma RootStep8Q()
    requires Valid(State7())
    ensures Root(State7(), 1) == (2, State7())
  {
    forall rank | Ranked(State7(), rank)
      ensures Walk(State7(), 1, rank) == (2, State7())
    {
      HalveKeepsRoots(State7(), rank, 1);
      assert Halve(State7(), 1) == State7();
      assert Walk(State7(), 1, rank) == Walk(State7(), 2, rank);
    }
  }

  /** `union(6, 1)` */
  lemma UnionStep8()
    requires Valid(State7())
    ensures Union(State7(), 6, 1) == State8() && Valid(State8())
  {
    assert Root(State7(), 6) == (6, State7());
    RootStep8Q();
    assert Attach(State7(), 2, 6) == State8();
  }

  lemma RootStep9P()
    requires Valid(State8())
    ensures Root(State8(), 7) == (6, Halved1())
  {
    forall rank | Ranked(State8(), rank)
      ensures Walk(State8(), 7, rank) == (6, Halved1())
    {
      HalveKeepsRoots(State8(), rank, 7);
      assert Halve(State8(), 7) == Halved1();
      assert Walk(State8(), 7, rank) == Walk(Halved1(), 6, rank);
    }
  }

  lemma RootStep9Q()
    requires Valid(Halved1())
    ensures Root(Halved1(), 3) == (4, Halved1())
  {
    forall rank | Ranked(Halved1(), rank)
      ensures Walk(Halved1(), 3, rank) == (4, Halved1())
    {
      HalveKeepsRoots(Halved1(), rank, 3);
      assert Halve(Halved1(), 3) == Halved1();
      assert Walk(Halved1(), 3, rank) == Walk(Halved1(), 4, rank);
    }
  }

  /** `union(7, 3)` */
  lemma UnionStep9()
    requires Valid(State8())
    ensures Union(State8(), 7, 3) == State9() && Valid(State9())
  {
    RootStep9P();
    RootStep9Q();
    assert Attach(Halved1(), 4, 6) == State9();
  }

  /** `connected(4, 5)` on ten singletons: no, and nothing to halve. */
  lemma ConnectedBefore()
    requires Valid(State0())
    ensures Connected(State0(), 4, 5) == (false, State0())
  {
    assert Root(State0(), 4) == (4, State0());
    assert Root(State0(), 5) == (5, State0());
  }

  /** `connected(4, 5)` after the nine unions: both reach root 6, and halving changes nothing. */
  lemma ConnectedAfter()
    requires Valid(State9())
    ensures Connected(State9(), 4, 5) == (true, State9())
  {
    forall rank | Ranked(State9(), rank)
      ensures Walk(State9(), 4, rank) == (6, State9()) && Walk(State9(), 5, rank) == (6, State9())
    {
      HalveKeepsRoots(State9(), rank, 4);
      assert Halve(State9(), 4) == State9();
      assert Walk(State9(), 4, rank) == Walk(State9(), 6, rank);
      HalveKeepsRoots(State9(), rank, 5);
      assert Halve(State9(), 5) == State9();
      assert Walk(State9(), 5, rank) == Walk(State9(), 6, rank);
    }
  }

  /**
   The whole example: `StateK` is what the K-th union leaves (the step
   lemmas above), so the `id` arrays the example prints are the `id` fields
   of `State0` .. `State9`; `connected(4, 5)` answers no before the unions
   and yes after them, and `reset` brings back the singletons.
   */
  lemma UnionExample()
    ensures New(10) == State0()
    ensures Connected(State0(), 4, 5) == (false, State0())
    ensures && Union(State0(), 4, 3) == State1() && Valid(State1())
            && Union(State1(), 3, 8) == State2() && Valid(State2())
            && Union(State2(), 6, 5) == State3() && Valid(State3())
            && Union(State3(), 9, 4) == State4() && Valid(State4())
            && Union(State4(), 2, 1) == State5() && Valid(State5())
            && Union(State5(), 5, 0) == State6() && Valid(State6())
            && Union(State6(), 7, 2) == State7() && Valid(State7())
            && Union(State7(), 6, 1) == State8() && Valid(State8())
            && Union(State8(), 7, 3) == State9() && Valid(State9())
    ensures Connected(State9(), 4, 5) == (true, State9())
    ensures Reset(State9()) == State0()
  {
    assert New(10) == State0();
    ConnectedBefore();
    UnionStep1();
    UnionStep2();
    UnionStep3();
    UnionStep4();
    UnionStep5();
    UnionStep6();
    UnionStep7();
    UnionStep8();
    UnionStep9();
    ConnectedAfter();
    assert Reset(State9()) == State0();
  }
}

=== FILE: wrappers.dfy ===
/** Failure values for the operations that reject their input. */
module Wrappers {

  datatype Error =
    | InvalidConfig  // a grid side that is not positive
    | EmptyRange     // a random index drawn from an empty range

  datatype Result<+T> = Ok(value: T) | Err(error: Error)
}
